=== FILE: README.md ===
# python-modernize: diff aggregation and fixer selection, in Dafny

This project models two pieces of pure logic from `libmodernize/main.py` in
python-modernize:

- `process_unified_diff`. After the rewriting engine has run, the tool
  captures its unified diff and turns it into a report, stored under
  `stream['result']`. The report maps each hunk-header line to a map from
  anchor line number to the text of one change run.
  - A change run is a block of consecutive `+`/`-` lines.
  - Its anchor is the new line counter if the run starts with a `+` line,
    and the old counter if it starts with a `-` line.
- The fixer-name selection in `main`. The `-x`/`--nofix` and `-f`/`--fix`
  names, the unicode options and `--no-six` decide which fixers are loaded
  and which of them count as explicitly requested.

## Layout

| file | module | contents |
|---|---|---|
| `wrappers.dfy` | `Wrappers` | `Option`, and `Result` with failure propagation |
| `strings.dfy` | `Strings` | `startswith`, `endswith`, `split` on one character, `int` on digit strings |
| `hunk_header.dfy` | `HunkHeader` | the header regular expression as a scanner plus a declarative reference; start-number extraction |
| `unified_diff.dfy` | `UnifiedDiff` | the loop state, one step of the loop, the fold `Run`, and `ProcessUnifiedDiff` |
| `diff_properties.dfy` | `DiffProperties` | reachable states, exact failure conditions, the effect of each kind of line, blocks, hunk independence, run overwriting |
| `diff_scenarios.dfy` | `DiffScenarios` | concrete diffs worked through the model |
| `fixer_selection.dfy` | `FixerSelection` | fixer selection in `main` and its element-wise characterisation |

### How the loop is modelled

The Python loop keeps five loose variables:

| Python | `State` field |
|---|---|
| `linenum` | `oldLine` |
| `linenumnew` | `newLine` |
| `hunkstart` | `hunk` |
| `linenr` | `anchor` |
| `isfirsthit` | `runOpen` |
| `suggestedfix2` | `report` |

- The variables live in one `State`, and one iteration of the loop is `Step`.
- The loop is the left fold `Run`, which stops at the first exception.
- Each exception the loop can raise becomes a `DiffError`:
  - `MalformedHeader`: `match` returned `None` and `.group` raised `AttributeError`.
  - `MissingStart`: `int('')` raised `ValueError`.
  - `NoCurrentHunk` / `NoCurrentRun`: a `KeyError`.
- The stream dictionary becomes `Stream`: the diff text, the `result` entry, and an opaque rest that the function never touches.

### The header pattern

The pattern `@@ (.[0-9]+\,?[0-9]*) (.[0-9]+\,?[0-9]*) @@` is applied with `re.match`. It is given twice:

- `HunkHeader.HeaderMatches` says declaratively when a line begins with `@@ g1 g2 @@` for two well-formed groups;
- `HunkHeader.ParseHeader` scans for the match.

The two are proved to agree in both directions. The key fact is that a group's tail never holds a space. So each group ends at the first space after its leading character, and the match is unique.

### Fixer selection

Selection is a function of four inputs:

- the available fixers;
- the opt-in fixers;
- the fixers that depend on six;
- the options.

The available fixers are a sequence. It stands for the order in which Python iterates over the set, and that order decides the match when one name fits several fixers. Every property proved holds for every order.

### Behaviour worth knowing

The model follows `main.py` except for what "## Left out" lists. Four consequences of the code are easy to miss:

- **Blank lines are not context lines.** An empty line takes no branch of the loop, so it does not close the run and does not move the counters (`DiffProperties.StepInert`).
- **Any line starting with `--` or `++` is skipped.** This is not limited to the `---`/`+++` file headers. A removed source line whose text starts with `-` is dropped, and so is an added line starting with `+` (`DiffProperties.InertLines`).
- **Concatenating a hunk's run texts does not give back its body.**
  - One map holds anchors taken from the old counter and anchors taken from the new counter.
  - Opening a run resets the entry at its anchor to `''`.
  - So a later run can overwrite an earlier one (`DiffProperties.RunOverwrite`, `DiffScenarios.LaterRunOverwritesEarlier`).
  - Skipped and blank lines are missing from the runs as well.
- **Malformed input is not tolerated.** Each of the following raises, and the whole pass fails (`DiffProperties.RunFails`):
  - an `@@` line the pattern does not match;
  - a header whose group starts with a comma;
  - a `+`/`-` line before the first header.

## Model

| member | source | states |
|---|---|---|
| `UnifiedDiff.ProcessUnifiedDiff` | libmodernize/main.py:248-301 | an empty diff returns the stream unchanged; a successful call changes only `result`; the report's keys are exactly the header lines of the diff |
| `UnifiedDiff.Step` | libmodernize/main.py:263-297 | one pass of the loop body; it has no contract of its own, and its behaviour is stated by `DiffProperties.StepFails`, `StepValidHeader`, `StepChange`, `StepContext` and `StepInert` |
| `UnifiedDiff.Run` | libmodernize/main.py:261-297 | the `for line in lines` loop, stopping at the first exception; it has no contract of its own, and its behaviour is stated by `DiffProperties.RunFails`, `RunWellFormed`, `RunBlock`, `CountersBetweenHeaders` and `HunkIndependence` |
| `UnifiedDiff.ValidHeader` | libmodernize/main.py:265-273 | the header branch succeeds: the pattern matches and neither group starts with a comma; `UnifiedDiff.OpenHunk` and `DiffProperties.StepFails` state that this is exactly when it does not raise |
| `UnifiedDiff.RunKeys` | libmodernize/main.py:261-297 | a successful pass adds as report keys exactly the `@@` lines it meets, and no other key |
| `UnifiedDiff.StepKeys` | libmodernize/main.py:265-274 | one line adds itself as a key when it is a header, and adds nothing otherwise |
| `UnifiedDiff.Classify` | libmodernize/main.py:263-292 | the branch a line takes, by its first characters: `@@` header; `+` not followed by `+`; `-` not followed by `-`; a leading space |
| `UnifiedDiff.OpenHunk` | libmodernize/main.py:265-274 | the header branch succeeds exactly on lines the pattern accepts with neither group starting with a comma; it makes the line the current hunk, closes the run and gives the header an empty run map |
| `UnifiedDiff.AppendToRun` | libmodernize/main.py:275-291 | a `+`/`-` line leaves the current hunk and both counters as they are and leaves a run open; with no entry for the current hunk it raises `KeyError` |
| `DiffProperties.InitialWellFormed` | libmodernize/main.py:252-258 | the initial values of the loop variables are a reachable state |
| `DiffProperties.StepWellFormed` | libmodernize/main.py:261-297 | every step keeps the reachable-state invariant: `''` is never a hunk key; before any header nothing is recorded; an open run's anchor has an entry |
| `DiffProperties.RunWellFormed` | libmodernize/main.py:261-297 | the invariant holds after any successful pass |
| `DiffProperties.StepFails` | libmodernize/main.py:263-297 | from a reachable state a line raises exactly when it is a rejected `@@` line or a `+`/`-` line before any header; the missing-anchor `KeyError` never happens; an unmatched `@@` line gives the `AttributeError` case, a matched one with a leading comma the `ValueError` case, a change before any header the `KeyError` on `''`; the error carries the line |
| `DiffProperties.HeaderErrors` | libmodernize/main.py:265-273 | an `@@` line the pattern rejects fails as `AttributeError` (`.groups()` on `None`); one it accepts with a group starting with a comma fails as `ValueError` from `int` |
| `DiffProperties.ChangeErrors` | libmodernize/main.py:275-291 | outside the header branch, a reachable state fails only on a `+`/`-` line while no hunk is current, and then with the `KeyError` on `''` |
| `DiffProperties.StepKeepsHunk` | libmodernize/main.py:275-297 | only a header line changes the current hunk |
| `DiffProperties.FailsAtShift` | libmodernize/main.py:261-297 | whether a later line raises does not depend on how the first line was consumed, beyond the hunk it opened |
| `DiffProperties.RunFails` | libmodernize/main.py:261-297 | the pass raises exactly when some line is a rejected header or a `+`/`-` line ahead of the first header |
| `DiffProperties.RunFailsFirst` | libmodernize/main.py:261-297 | a failing pass stops at the first line that fails from the state the lines before it left, and the error it reports carries that line |
| `DiffProperties.FirstFailure` | libmodernize/main.py:261-297 | a first failing line of the rest of the lines, after a first line that succeeds, is a first failing line of the whole |
| `DiffProperties.ProcessFails` | libmodernize/main.py:248-301 | the whole function raises exactly when the diff is non-empty and one of its lines would raise |
| `DiffProperties.StepValidHeader` | libmodernize/main.py:265-274 | an accepted header restarts both counters from its groups' start numbers, closes the run and discards any runs recorded under the same header before |
| `DiffProperties.StepHeader` | libmodernize/main.py:265-274 | a header `@@ -<digits>[,n] +<digits>[,n] @@<anything>` sets the old and new counters to the decimal values of its two digit strings |
| `DiffProperties.StepHeaderNumbers` | libmodernize/main.py:265-274 | the header `@@ -a,b +c,d @@` succeeds, sets the old counter to `a` and the new one to `c`, closes the run and empties its run map |
| `DiffProperties.StepChange` | libmodernize/main.py:275-291 | a `+` line advances only the new counter and a `-` line only the old one; with no run open it opens one under that counter and resets that entry to `''`; it appends itself, prefix included, plus a newline |
| `DiffProperties.StartRun` | libmodernize/main.py:276-279 | between runs, a `+` line opens a run under the new counter and a `-` line under the old counter, holding just that line |
| `DiffProperties.OpenedRunIsAfterChange` | libmodernize/main.py:276-287 | between runs, opening a run under the anchor the change line picks gives the same state as the change step itself |
| `DiffProperties.StepContext` | libmodernize/main.py:292-297 | a line starting with a space advances both counters, closes the run and records nothing |
| `DiffProperties.StepInert` | libmodernize/main.py:261-297 | a line that takes no branch of the loop body changes no state at all |
| `DiffProperties.InertLines` | libmodernize/main.py:263-292 | the lines that take no branch are exactly those starting with `--` or `++`, and those that start with neither `@@`, `+`, `-` nor a space (empty lines, `\ No newline`, `diff --git`, `index`) |
| `DiffProperties.RunBlock` | libmodernize/main.py:275-291 | a block of `+`/`-` lines inside a hunk forms one run: its anchor is picked by the first line, and its text is every line in order, each followed by a newline; the counters advance by the number of `-` and `+` lines |
| `DiffProperties.BlockOfOne` | libmodernize/main.py:275-291 | a block of one line is that line's step |
| `DiffProperties.BlockTail` | libmodernize/main.py:275-291 | after the first line of a block, the rest of the block lands in the same run |
| `DiffProperties.FirstBlock` | libmodernize/main.py:271-279 | the first block after a header is the only run of that hunk |
| `DiffProperties.AfterHeaderBlock` | libmodernize/main.py:265-291 | a header followed by a block records the block as the hunk's only run, under the header's new start number if the block starts with `+` and its old start number otherwise |
| `DiffProperties.HeaderThenBlock` | libmodernize/main.py:265-291 | after `@@ -a,b +c,d @@`, a block of changes is one run anchored at `c` if it starts with an addition and at `a` if it starts with a removal |
| `DiffProperties.CountersBetweenHeaders` | libmodernize/main.py:282-294 | between headers the old counter grows by the number of `-` and context lines and the new counter by the number of `+` and context lines; neither decreases; the hunk is unchanged |
| `DiffProperties.StepAgree` | libmodernize/main.py:275-297 | a non-header line treats two states alike if they agree on the counters, the hunk, its runs and the open run |
| `DiffProperties.RunAgree` | libmodernize/main.py:275-297 | header-free lines never raise from such states and keep them in agreement |
| `DiffProperties.HunkIndependence` | libmodernize/main.py:265-297 | a valid header followed by header-free lines never raises; it produces the same runs and counters whatever earlier hunks left behind |
| `DiffProperties.RunKeepsOtherHunk` | libmodernize/main.py:261-297 | once another hunk is current, lines other than a hunk's own header never change that hunk's runs |
| `DiffProperties.StepKeepsOtherHunk` | libmodernize/main.py:263-297 | one line other than a hunk's header, with another hunk current, keeps that hunk's runs and does not make it current |
| `DiffProperties.HeaderKeepsOther` | libmodernize/main.py:265-274 | a valid header makes itself the current hunk and leaves the runs of every other header as they were |
| `DiffProperties.SecondHunkKeepsFirst` | libmodernize/main.py:265-291 | a second header and its block of changes leave the runs of an earlier, different header unchanged |
| `DiffProperties.TwoHunks` | libmodernize/main.py:261-297 | two hunks with different headers, each followed by a block of changes, both appear in the report, each with its block as its only run under its own anchor |
| `DiffProperties.ValidHeaderIsHeader` | libmodernize/main.py:265-268 | every line the pattern accepts takes the `@@` branch |
| `DiffProperties.RunCons` | libmodernize/main.py:261 | the loop over a list is the first line's step followed by the loop over the rest |
| `DiffProperties.RunAppend` | libmodernize/main.py:261 | the loop over a concatenation continues from where the loop over the first part stopped, or stops with its exception |
| `DiffProperties.ContextLines` | libmodernize/main.py:292-297 | `n` context lines advance both counters by `n`, close the run and record nothing |
| `DiffProperties.RemovalThenContexts` | libmodernize/main.py:283-297 | a removal opens a run under the old counter, and the context lines after it close that run |
| `DiffProperties.LoneAddition` | libmodernize/main.py:275-282 | between runs, a single addition opens a run under the new counter |
| `DiffProperties.OverwriteSteps` | libmodernize/main.py:275-297 | a removal, context lines and an addition end with the addition opening a run under the removal's anchor once the counters have met |
| `DiffProperties.OverwriteReport` | libmodernize/main.py:279 | re-opening a run at an anchor discards the text recorded there |
| `DiffProperties.RunOverwrite` | libmodernize/main.py:275-297 | when the new counter catches up with an earlier removal's anchor, the later addition overwrites that run; the removal's text is lost |
| `DiffProperties.HeaderThenOverwrite` | libmodernize/main.py:265-297 | in a hunk `@@ -a,b +c,d @@` with a removal, `a - c` context lines and an addition, only the addition survives, under `a` |
| `DiffScenarios.RenameImport` | libmodernize/main.py:248-301 | file headers are skipped; a removal and an addition with no context between them form one run under old line 1; the trailing context line records nothing |
| `DiffScenarios.GarbageHeader` | libmodernize/main.py:268 | `@@ garbage @@` does not match the pattern, and the pass raises |
| `DiffScenarios.AddedBeforeHeader` | libmodernize/main.py:257-281 | a `+` line ahead of every header raises `KeyError` |
| `DiffScenarios.CommaStart` | libmodernize/main.py:268-273 | `@@ ,1 +1 @@` matches the pattern, but `int('')` raises |
| `DiffScenarios.LaterRunOverwritesEarlier` | libmodernize/main.py:275-297 | in `@@ -5,5 +1,5 @@` followed by `-a`, four context lines and `+f`, the hunk ends up with `{5: "+f\n"}` only |
| `HunkHeader.HeaderMatches` | libmodernize/main.py:260-268 | `re.match` of the header pattern with groups `g1` and `g2`: the line begins with `@@ g1 g2 @@`; it is the reference that `ParseHeaderSound` and `ParseHeaderComplete` relate the scanner to |
| `HunkHeader.ParseHeader` | libmodernize/main.py:260-268 | every pair of groups the scanner returns is well formed: any character but a newline, digits, at most one comma, more digits |
| `HunkHeader.ParseHeaderSound` | libmodernize/main.py:260-268 | every match the scanner reports is a match of the pattern at the start of the line |
| `HunkHeader.ParseHeaderComplete` | libmodernize/main.py:260-268 | every match of the pattern is the one the scanner reports, so the match is unique and the scanner misses none |
| `HunkHeader.ParseHeaderDigit` | libmodernize/main.py:260 | a matched header has a digit right after `@@ ` and the sign |
| `HunkHeader.StartNumber` | libmodernize/main.py:269-273 | the start number of a group is the value of the digits between its first character and any comma; it raises exactly when the group starts with a comma |
| `HunkHeader.StartDigits` | libmodernize/main.py:269-270 | `group.split(',')[0][1:]` is empty for a leading comma, and otherwise the group's leading digit run |
| `HunkHeader.GroupHead` | libmodernize/main.py:269-270 | `group.split(',')[0]` is empty for a leading comma, and otherwise everything before the group's own comma |
| `HunkHeader.StartNumberOf` | libmodernize/main.py:269-273 | a group built from a sign, digits and an optional `,count` has the value of those digits as its start number |
| `Strings.Split` | libmodernize/main.py:251 | `str.split` with one separator: at least one piece, no piece holds the separator, and joining the pieces gives the string back |
| `Strings.SplitJoin` | libmodernize/main.py:251 | splitting undoes joining separator-free pieces |
| `Strings.SplitCons` | libmodernize/main.py:269-270 | a separator-free piece followed by the separator splits off as the first piece |
| `Strings.SplitSingle` | libmodernize/main.py:269-270 | a separator-free string splits into itself |
| `Strings.ParseInt` | libmodernize/main.py:272-273 | `int` succeeds exactly on non-empty strings of ASCII digits |
| `Strings.ParseIntShowNat` | libmodernize/main.py:272-273 | reading back the decimal rendering of a number gives the number |
| `FixerSelection.SplitNames` | libmodernize/main.py:138-140 | the comma-split names hold no comma, there are at least as many as option values, and a name occurs exactly when it is a comma-separated piece of some value |
| `FixerSelection.SplitNamesAppend` | libmodernize/main.py:139-140 | the names of several values are the names of the first ones followed by those of the rest, in order |
| `FixerSelection.SplitNamesSingle` | libmodernize/main.py:139-140 | one value gives exactly its own `split(',')` pieces |
| `FixerSelection.Designates` | libmodernize/main.py:144 | the test `tgt == fix or tgt.endswith(".fix_" + fix)` (also at main.py:179); `FindFixer` and `FindFixerFirst` state how it picks the match |
| `FixerSelection.FindFixer` | libmodernize/main.py:142-147 | a name resolves to an available fixer it equals or that ends with `.fix_<name>`; no result means no available fixer fits |
| `FixerSelection.FindFixerFirst` | libmodernize/main.py:143-147 | the fixer found is the first fitting one in iteration order |
| `FixerSelection.ResolveUnwanted` | libmodernize/main.py:139-151 | `-x` fails exactly when some name fits no available fixer; on success the unwanted fixers are exactly those the names resolve to |
| `FixerSelection.FirstUnknownReported` | libmodernize/main.py:141-151 | the error names the first unresolvable `-x` name in command-line order |
| `FixerSelection.ResolveExplicit` | libmodernize/main.py:167-185 | the explicit set is exactly what the non-`default` `-f` names stand for: the fixer found, or the name itself for a non-standard fixer |
| `FixerSelection.ResolveOrKeep` | libmodernize/main.py:177-185 | an `-f` name stands for the fixer it designates, or for itself when none fits; `ResolveExplicit` and `UnknownFixKept` state its effect |
| `FixerSelection.UnicodeUnwanted` | libmodernize/main.py:155-162 | the unicode fixers ruled out by the options; `Select` and `SelectMembers` state which unicode fixer can load under which option |
| `FixerSelection.Select` | libmodernize/main.py:137-190 | fails exactly on an unresolvable `-x` name; explicit is a subset of the loaded fixers; `fix_unicode` only with `--six-unicode`; `fix_unicode_future` only with `--future-unicode` and without `--six-unicode`; `--no-six` loads no six fixer; without `-f` only non-opt-in available fixers load |
| `FixerSelection.SelectMembers` | libmodernize/main.py:153-190 | a fixer is loaded exactly when it is requested and not ruled out; requested means a default fixer with defaults wanted, or asked for with `-f`. It is explicit exactly when it is loaded and asked for |
| `FixerSelection.NofixRemoves` | libmodernize/main.py:139-189 | every `-x` name removes the fixer it resolves to |
| `FixerSelection.UnknownFixKept` | libmodernize/main.py:183-190 | an `-f` name that fits no available fixer is kept verbatim in `fixer_names` and `explicit` unless it is ruled out (the listing at main.py:194-195 then raises for a name without `.fix_`, see below) |
| `FixerSelection.OnlyAskedFor` | libmodernize/main.py:186-190 | `-f` without `default` loads exactly the explicit fixers |

## Left out

- Capture of the engine's output (`ListStream`), `lib23process`, `StdoutRefactoringTool` and the `refactor` calls. They are I/O and orchestration around an external engine. The diff text is an input of the model.
- Option wiring with `optparse`, including `parser.error` at main.py:110, which exits. This is input handling; the model takes the parsed option values as its input.
- Logging and every `print`/`warn`. These are output.
- FixerSelection.Select: stops at the selected sets. It does not model the listing of loaded fixers at main.py:192-203. That listing evaluates `fixname.split(".fix_", 1)[1]` for every loaded fixer. So a name kept verbatim from `-f` that contains no `.fix_` makes `main` raise `IndexError` at main.py:195, before any fixer runs. `FixerSelection.UnknownFixKept` states only that the name is selected, not that the program survives the listing.
- `json.dumps` and the module-global `final` dictionary. They are serialisation and global state outside the two functions.
- `libmodernize/fixes/fix_import.py`. It defers to a lib2to3 fixer whose behaviour is not part of this model.
- The unused `suggestedfix` dictionary and the `linenr += 1` on context lines. Nothing ever reads either: the next run always assigns `linenr` before using it.
- The insertion order of Python dictionaries. No property depends on the order of keys.
- A stream without an `original_diff` entry, which raises `KeyError`. The stream is modelled as always carrying the diff. Its `result` field stands for the `result` entry, whether that entry is present or absent.
- Strings.ParseInt: defined only on strings of ASCII digits. The pattern guarantees `int` never receives anything else, so whitespace, signs and underscores, which `int` would accept, are not modelled.
- Strings.ParseInt: has no limit on the number of digits, as in Python 2 and Python 3 before the integer-string conversion limit. On CPython 3.11 and later, and on the 3.7-3.10 security releases of September 2022, `int` raises `ValueError` on a decimal string of more than 4300 digits. So a header such as `@@ -` followed by 4301 ones and ` +1 @@` raises at main.py:272 there, while the model accepts it. The "exactly when" clauses of `HunkHeader.StartNumber`, `DiffProperties.StepFails`, `DiffProperties.RunFails` and `DiffProperties.ProcessFails` describe the unlimited `int`.
- UnifiedDiff.ProcessUnifiedDiff: returns the stream as a new value. The source stores `result` into the dictionary it was given and returns that same dictionary (main.py:299-301). Its only caller, at main.py:230, uses just the returned value, so it cannot tell the difference.
- HunkHeader.ParseHeader: models only this one pattern. It does not model general regular-expression semantics.
- FixerSelection.FindFixer: Python's set iteration order is not specified, so the loop can pick any fitting fixer. The model takes the order as an input sequence and picks the first fit. The theorems hold for every order, but each one fixes an order rather than quantifying over an arbitrary choice.

=== FILE: diff_properties.dfy ===
/** Properties of the `process_unified_diff` model: which states the loop can
    reach, exactly when it raises, what each kind of line does, how a block
    of change lines becomes one run, and that hunks do not influence each
    other. */
module DiffProperties {

  import opened Wrappers
  import opened Strings
  import opened HunkHeader
  import opened UnifiedDiff

  /** The states the loop can reach: the hunk key is `''` only before the
      first header, and then nothing has been recorded; afterwards it names
      a recorded hunk, and an open run's anchor has an entry in it. */
  predicate WellFormed(st: State) {
    && "" !in st.report
    && (st.hunk == "" ==> st.report == map[])
    && (st.hunk != "" ==> st.hunk in st.report)
    && (st.runOpen && st.hunk != "" ==> st.anchor in st.report[st.hunk])
  }

  lemma InitialWellFormed()
    ensures WellFormed(Initial)
  {
  }

  lemma StepWellFormed(st: State, line: string)
    requires WellFormed(st)
    requires Step(st, line).Success?
    ensures WellFormed(Step(st, line).value)
  {
  }

  lemma {:induction false} RunWellFormed(st: State, lines: seq<string>)
    requires WellFormed(st)
    requires Run(st, lines).Success?
    ensures WellFormed(Run(st, lines).value)
    decreases |lines|
  {
    if |lines| > 0 {
      StepWellFormed(st, lines[0]);
      RunWellFormed(Step(st, lines[0]).value, lines[1..]);
    }
  }

  /** From a reachable state one line raises exactly when it is an `@@` line
      the loop rejects, or a `+`/`-` line before any header. In particular
      the missing-anchor `KeyError` never happens. */
  lemma StepFails(st: State, line: string)
    requires WellFormed(st)
    ensures Step(st, line).Failure? <==>
              || (Classify(line) == Header && !ValidHeader(line))
              || (IsChange(line) && st.hunk == "")
    ensures Step(st, line).Failure? ==> !Step(st, line).error.NoCurrentRun?
    ensures Step(st, line).Failure? ==> Step(st, line).error.line == line
    ensures Classify(line) == Header && ParseHeader(line).None? ==>
              Step(st, line) == Failure(MalformedHeader(line))
    ensures Classify(line) == Header && ParseHeader(line).Some? && !ValidHeader(line) ==>
              Step(st, line) == Failure(MissingStart(line))
    ensures IsChange(line) && st.hunk == "" ==> Step(st, line) == Failure(NoCurrentHunk(line))
  {
    if Classify(line) == Header {
      HeaderErrors(st, line);
    } else {
      ChangeErrors(st, line);
    }
  }

  /** An `@@` line raises `AttributeError` when the pattern does not match it,
      and `ValueError` when a group starts with a comma. */
  lemma HeaderErrors(st: State, line: string)
    requires Classify(line) == Header
    ensures ParseHeader(line).None? ==> Step(st, line) == Failure(MalformedHeader(line))
    ensures ParseHeader(line).Some? && !ValidHeader(line) ==> Step(st, line) == Failure(MissingStart(line))
    ensures Step(st, line).Failure? ==> Step(st, line).error.line == line
  {
  }

  /** A `+`/`-` line before any header raises `KeyError` on the missing hunk
      `''`; inside a hunk it never raises. */
  lemma ChangeErrors(st: State, line: string)
    requires WellFormed(st)
    requires Classify(line) != Header
    ensures IsChange(line) && st.hunk == "" ==> Step(st, line) == Failure(NoCurrentHunk(line))
    ensures Step(st, line).Failure? ==> IsChange(line) && st.hunk == ""
    ensures Step(st, line).Failure? ==> Step(st, line).error == NoCurrentHunk(line)
  {
  }

  /** A non-header line never changes the current hunk. */
  lemma StepKeepsHunk(st: State, line: string)
    requires Classify(line) != Header
    requires Step(st, line).Success?
    ensures Step(st, line).value.hunk == st.hunk
  {
  }

  predicate NoHeaderBefore(lines: seq<string>, i: int)
    requires 0 <= i <= |lines|
  {
    forall j | 0 <= j < i :: Classify(lines[j]) != Header
  }

  /** Line `i` makes the loop raise if it is reached: a rejected `@@` line,
      or a `+`/`-` line while no hunk has been opened yet. */
  predicate FailsAt(hunk: string, lines: seq<string>, i: int)
    requires 0 <= i < |lines|
  {
    || (Classify(lines[i]) == Header && !ValidHeader(lines[i]))
    || (IsChange(lines[i]) && hunk == "" && NoHeaderBefore(lines, i))
  }

  lemma FailsAtShift(st: State, lines: seq<string>, i: int)
    requires WellFormed(st) && 1 <= i < |lines|
    requires Step(st, lines[0]).Success?
    ensures FailsAt(st.hunk, lines, i)
            <==> FailsAt(Step(st, lines[0]).value.hunk, lines[1..], i - 1)
  {
    var next := Step(st, lines[0]).value;
    assert lines[1..][i - 1] == lines[i];
    if Classify(lines[0]) == Header {
      assert next.hunk == lines[0] != "";
      assert !NoHeaderBefore(lines, i);
    } else {
      StepKeepsHunk(st, lines[0]);
      assert NoHeaderBefore(lines, i) <==> NoHeaderBefore(lines[1..], i - 1) by {
        if NoHeaderBefore(lines[1..], i - 1) {
          forall j | 0 <= j < i
            ensures Classify(lines[j]) != Header
          {
            if j > 0 {
              assert lines[1..][j - 1] == lines[j];
            }
          }
        }
        if NoHeaderBefore(lines, i) {
          forall j | 0 <= j < i - 1
            ensures Classify(lines[1..][j]) != Header
          {
            assert lines[1..][j] == lines[j + 1];
          }
        }
      }
    }
  }

  /** The whole loop raises exactly when some line would raise on being
      reached: a rejected `@@` line anywhere, or a `+`/`-` line ahead of
      the first header (when no hunk is open at the start). */
  lemma {:induction false} RunFails(st: State, lines: seq<string>)
    requires WellFormed(st)
    ensures Run(st, lines).Failure? <==>
              exists i | 0 <= i < |lines| :: FailsAt(st.hunk, lines, i)
    decreases |lines|
  {
    if |lines| > 0 {
      StepFails(st, lines[0]);
      if Step(st, lines[0]).Failure? {
        assert FailsAt(st.hunk, lines, 0);
      } else {
        var next := Step(st, lines[0]).value;
        StepWellFormed(st, lines[0]);
        RunFails(next, lines[1..]);
        assert !FailsAt(st.hunk, lines, 0);
        if exists i | 0 <= i < |lines| :: FailsAt(st.hunk, lines, i) {
          var i :| 0 <= i < |lines| && FailsAt(st.hunk, lines, i);
          FailsAtShift(st, lines, i);
          assert FailsAt(next.hunk, lines[1..], i - 1);
        }
        if exists i | 0 <= i < |lines[1..]| :: FailsAt(next.hunk, lines[1..], i) {
          var i :| 0 <= i < |lines[1..]| && FailsAt(next.hunk, lines[1..], i);
          FailsAtShift(st, lines, i + 1);
          assert FailsAt(st.hunk, lines, i + 1);
        }
      }
    }
  }

  /** The pass stops at the first line that raises, and the error it reports
      carries that line: no earlier line would have raised. */
  lemma {:induction false} RunFailsFirst(st: State, lines: seq<string>)
    requires WellFormed(st)
    requires Run(st, lines).Failure?
    ensures exists i | 0 <= i < |lines| ::
              && FailsAt(st.hunk, lines, i)
              && (forall j | 0 <= j < i :: !FailsAt(st.hunk, lines, j))
              && Run(st, lines).error.line == lines[i]
    decreases |lines|
  {
    StepFails(st, lines[0]);
    if Step(st, lines[0]).Failure? {
      assert FailsAt(st.hunk, lines, 0);
    } else {
      var next := Step(st, lines[0]).value;
      StepWellFormed(st, lines[0]);
      RunFailsFirst(next, lines[1..]);
      var i :| 0 <= i < |lines[1..]|
               && FailsAt(next.hunk, lines[1..], i)
               && (forall j | 0 <= j < i :: !FailsAt(next.hunk, lines[1..], j))
               && Run(next, lines[1..]).error.line == lines[1..][i];
      FirstFailure(st, lines, i);
    }
  }

  /** The first failing line after the first one, seen from the whole list. */
  lemma FirstFailure(st: State, lines: seq<string>, i: int)
    requires WellFormed(st) && 0 <= i < |lines| - 1
    requires Step(st, lines[0]).Success?
    requires !FailsAt(st.hunk, lines, 0)
    requires FailsAt(Step(st, lines[0]).value.hunk, lines[1..], i)
    requires forall j | 0 <= j < i :: !FailsAt(Step(st, lines[0]).value.hunk, lines[1..], j)
    ensures FailsAt(st.hunk, lines, i + 1)
    ensures forall j | 0 <= j < i + 1 :: !FailsAt(st.hunk, lines, j)
    ensures lines[1..][i] == lines[i + 1]
  {
    FailsAtShift(st, lines, i + 1);
    forall j | 1 <= j < i + 1
      ensures !FailsAt(st.hunk, lines, j)
    {
      FailsAtShift(st, lines, j);
    }
  }

  /** Some line of a diff makes the loop raise, starting with no hunk open. */
  predicate Rejected(lines: seq<string>) {
    exists i | 0 <= i < |lines| :: FailsAt("", lines, i)
  }

  /** The whole function raises exactly when the diff is non-empty and one
      of its lines is a rejected `@@` line or a `+`/`-` line ahead of the
      first header. */
  lemma ProcessFails<X>(s: Stream<X>)
    ensures ProcessUnifiedDiff(s).Failure? <==>
              s.originalDiff != "" && Rejected(Split(s.originalDiff, '\n'))
  {
    InitialWellFormed();
    var lines := Split(s.originalDiff, '\n');
    RunFails(Initial, lines);
    assert Initial.hunk == "";
    if s.originalDiff != "" {
      assert ProcessUnifiedDiff(s).Failure? <==> Run(Initial, lines).Failure?;
    }
  }

  /** A header line the pattern accepts restarts the old and new counters
      from its two start numbers, closes the run, and empties that header's
      runs (so a repeated header discards the runs recorded under it
      before). */
  lemma StepValidHeader(st: State, line: string)
    requires ValidHeader(line)
    ensures var p := ParseHeader(line).value;
            Step(st, line) == Success(State(StartNumber(p.0).value, StartNumber(p.1).value,
                                            line, st.anchor, false, st.report[line := map[]]))
  {
    ValidHeaderIsHeader(line);
  }

  /** A header `@@ -<digits>[,count] +<digits>[,count] @@<anything>` restarts
      the counters from the values of its two digit strings. */
  lemma StepHeader(st: State, line: string, oldDigits: string, oldCount: string,
                   newDigits: string, newCount: string, rest: string)
    requires |oldDigits| >= 1 && AllDigits(oldDigits)
    requires |newDigits| >= 1 && AllDigits(newDigits)
    requires oldCount == [] || (oldCount[0] == ',' && AllDigits(oldCount[1..]))
    requires newCount == [] || (newCount[0] == ',' && AllDigits(newCount[1..]))
    requires line == "@@ -" + oldDigits + oldCount + " +" + newDigits + newCount + " @@" + rest
    ensures Step(st, line) == Success(State(DigitsValue(oldDigits), DigitsValue(newDigits),
                                            line, st.anchor, false, st.report[line := map[]]))
  {
    var g1 := ['-'] + oldDigits + oldCount;
    var g2 := ['+'] + newDigits + newCount;
    StartNumberOf('-', oldDigits, oldCount);
    StartNumberOf('+', newDigits, newCount);
    HeaderShape(oldDigits, oldCount, newDigits, newCount);
    assert line == ("@@ " + g1 + " " + g2 + " @@") + rest;
    ParseHeaderComplete(line, g1, g2);
    StepValidHeader(st, line);
  }

  /** `@@ -` + ... regrouped as `@@ ` + group + ` ` + group + ` @@`. */
  lemma HeaderShape(a: string, ac: string, c: string, cc: string)
    ensures "@@ -" + a + ac + " +" + c + cc + " @@"
            == "@@ " + (['-'] + a + ac) + " " + (['+'] + c + cc) + " @@"
  {
  }

  /** The header line `@@ -a,b +c,d @@` as a diff tool writes it. */
  function HeaderText(a: nat, b: nat, c: nat, d: nat): string {
    "@@ -" + ShowNat(a) + ("," + ShowNat(b)) + " +" + ShowNat(c) + ("," + ShowNat(d)) + " @@"
  }

  /** The usual `@@ -a,b +c,d @@` header sets the old counter to `a` and the
      new counter to `c`. */
  lemma StepHeaderNumbers(st: State, a: nat, b: nat, c: nat, d: nat)
    ensures var line := HeaderText(a, b, c, d);
            && Step(st, line).Success?
            && Step(st, line).value.oldLine == a
            && Step(st, line).value.newLine == c
            && !Step(st, line).value.runOpen
            && Step(st, line).value.report == st.report[line := map[]]
  {
    var line := HeaderText(a, b, c, d);
    DigitsValueShowNat(a);
    DigitsValueShowNat(c);
    var ob := "," + ShowNat(b);
    var od := "," + ShowNat(d);
    assert ob[1..] == ShowNat(b) && od[1..] == ShowNat(d);
    StepHeader(st, line, ShowNat(a), ob, ShowNat(c), od, "");
  }

  /** The anchor a `+`/`-` line files its text under: the current anchor
      while a run is open, otherwise the new counter for `+` and the old
      counter for `-`. */
  function AnchorFor(st: State, line: string): int {
    if st.runOpen then st.anchor
    else if Classify(line) == Added then st.newLine
    else st.oldLine
  }

  /** The text a `+`/`-` line is appended to: the open run's text, or `''`
      when the line opens a new run (overwriting whatever was there). */
  function TextBefore(st: State): string
    requires WellFormed(st) && st.hunk != ""
  {
    if st.runOpen then st.report[st.hunk][st.anchor] else ""
  }

  /** The state after a `+`/`-` line: a `+` line advances only the new
      counter and a `-` line only the old one; either opens a run at
      `AnchorFor` if none is open, and appends itself, prefix included, and a
      newline to that run; nothing else in the report changes. */
  function AfterChange(st: State, line: string): State
    requires WellFormed(st) && st.hunk != ""
  {
    var anchor := AnchorFor(st, line);
    var plus := Classify(line) == Added;
    st.(oldLine := if plus then st.oldLine else st.oldLine + 1,
        newLine := if plus then st.newLine + 1 else st.newLine,
        anchor := anchor, runOpen := true,
        report := st.report[st.hunk := st.report[st.hunk][anchor := TextBefore(st) + line + "\n"]])
  }

  /** One `+`/`-` line inside a hunk. */
  lemma StepChange(st: State, line: string)
    requires WellFormed(st) && st.hunk != ""
    requires IsChange(line)
    ensures Step(st, line) == Success(AfterChange(st, line))
  {
    var anchor := AnchorFor(st, line);
    var text := TextBefore(st) + line + "\n";
    var appended := st.(anchor := anchor, runOpen := true,
      report := st.report[st.hunk := st.report[st.hunk][anchor := text]]);
    if !st.runOpen {
      var runs := st.report[st.hunk][anchor := ""];
      assert runs[anchor] + line + "\n" == text;
      assert runs[anchor := text] == st.report[st.hunk][anchor := text];
    }
    if Classify(line) == Added {
      assert AppendToRun(st, line, st.newLine) == Success(appended);
    } else {
      assert AppendToRun(st, line, st.oldLine) == Success(appended);
    }
  }

  /** A line starting with a space advances both counters and closes the
      run; it is recorded nowhere. */
  lemma StepContext(st: State, line: string)
    requires |line| >= 1 && line[0] == ' '
    ensures Step(st, line) == Success(st.(oldLine := st.oldLine + 1,
                                          newLine := st.newLine + 1,
                                          runOpen := false))
  {
  }

  /** A line that takes no branch of the loop body changes nothing at all. */
  lemma StepInert(st: State, line: string)
    requires Classify(line) == Skipped || Classify(line) == NoBranch
    ensures Step(st, line) == Success(st)
  {
  }

  /** The lines that take no branch: those starting with `--` or `++` (file
      headers, but also removed or added lines whose own text starts with
      `-` or `+`), and those starting with neither `@@`, `+`, `-` nor a
      space, such as empty lines, `\ No newline at end of file` and the
      `diff --git` and `index` lines a version-control tool adds. */
  lemma InertLines(line: string)
    ensures Classify(line) == Skipped || Classify(line) == NoBranch
            <==> || StartsWith(line, "--") || StartsWith(line, "++")
                 || line == [] || line[0] !in {'@', '+', '-', ' '}
                 || (line[0] == '@' && (|line| == 1 || line[1] != '@'))
  {
  }

  function Count(lines: seq<string>, k: LineKind): nat {
    if |lines| == 0 then 0
    else (if Classify(lines[0]) == k then 1 else 0) + Count(lines[1..], k)
  }

  /** `+`/`-` lines glued together as the loop records them. */
  function Terminated(lines: seq<string>): string {
    if |lines| == 0 then "" else lines[0] + "\n" + Terminated(lines[1..])
  }

  /** Every line is a `+` or `-` line. */
  predicate AllChange(lines: seq<string>) {
    forall i | 0 <= i < |lines| :: IsChange(lines[i])
  }

  /** Where a block of `+`/`-` lines inside a hunk leaves the loop: one run,
      under the anchor the block's first line picks, whose text is the open
      run's text (or `''`) followed by every line of the block in order; the
      counters moved by the number of `-` and `+` lines. */
  function AfterBlock(st: State, block: seq<string>): State
    requires WellFormed(st) && st.hunk != "" && |block| >= 1
  {
    var anchor := AnchorFor(st, block[0]);
    st.(oldLine := st.oldLine + Count(block, Removed),
        newLine := st.newLine + Count(block, Added),
        anchor := anchor, runOpen := true,
        report := st.report[st.hunk := st.report[st.hunk][anchor := TextBefore(st) + Terminated(block)]])
  }

  /** The loop over a block of `+`/`-` lines inside a hunk ends in
      `AfterBlock`. */
  lemma {:induction false} RunBlock(st: State, block: seq<string>)
    requires WellFormed(st) && st.hunk != ""
    requires |block| >= 1 && AllChange(block)
    ensures Run(st, block) == Success(AfterBlock(st, block))
    decreases |block|
  {
    assert IsChange(block[0]);
    StepChange(st, block[0]);
    StepWellFormed(st, block[0]);
    var next := AfterChange(st, block[0]);
    assert Run(st, block) == Run(next, block[1..]);
    if |block| == 1 {
      BlockOfOne(st, block, next);
    } else {
      assert AllChange(block[1..]) by {
        forall i | 0 <= i < |block| - 1
          ensures IsChange(block[1..][i])
        {
          assert block[1..][i] == block[i + 1];
        }
      }
      RunBlock(next, block[1..]);
      BlockTail(st, block, next);
    }
  }

  lemma BlockOfOne(st: State, block: seq<string>, next: State)
    requires WellFormed(st) && st.hunk != ""
    requires |block| == 1 && IsChange(block[0])
    requires next == AfterChange(st, block[0])
    ensures Run(next, block[1..]) == Success(next)
    ensures next == AfterBlock(st, block)
  {
    assert block[1..] == [];
    assert Count(block[1..], Removed) == 0 && Count(block[1..], Added) == 0;
    assert Terminated(block) == block[0] + "\n" + "";
    assert TextBefore(st) + Terminated(block) == TextBefore(st) + block[0] + "\n";
  }

  /** The first line of a block changes nothing about where the rest of
      the block ends up. */
  lemma BlockTail(st: State, block: seq<string>, next: State)
    requires WellFormed(st) && st.hunk != ""
    requires |block| >= 2 && IsChange(block[0])
    requires next == AfterChange(st, block[0])
    requires WellFormed(next)
    ensures AfterBlock(next, block[1..]) == AfterBlock(st, block)
  {
    var h, anchor := st.hunk, AnchorFor(st, block[0]);
    assert AnchorFor(next, block[1..][0]) == anchor;
    assert TextBefore(next) == TextBefore(st) + block[0] + "\n";
    assert Terminated(block) == block[0] + "\n" + Terminated(block[1..]);
    var text := TextBefore(st) + Terminated(block);
    assert TextBefore(next) + Terminated(block[1..]) == text;
    assert next.report[h][anchor := text] == st.report[h][anchor := text];
    assert next.report[h := st.report[h][anchor := text]] == st.report[h := st.report[h][anchor := text]];
  }

  /** The fold on a sequence with a given first line. */
  lemma RunCons(st: State, line: string, rest: seq<string>)
    ensures Run(st, [line] + rest)
            == if Step(st, line).Failure? then Failure(Step(st, line).error)
               else Run(Step(st, line).value, rest)
  {
    assert ([line] + rest)[1..] == rest;
  }

  /** Right after a header `@@ -a,b +c,d @@`, a block of `+`/`-` lines is
      recorded as the hunk's only run, under `c` if the block starts with an
      addition and under `a` if it starts with a removal. */
  lemma HeaderThenBlock(st: State, a: nat, b: nat, c: nat, d: nat, block: seq<string>)
    requires WellFormed(st)
    requires |block| >= 1 && AllChange(block)
    ensures var header := HeaderText(a, b, c, d);
            && Run(st, [header] + block).Success?
            && header in Run(st, [header] + block).value.report
            && Run(st, [header] + block).value.report[header]
               == map[(if Classify(block[0]) == Added then c else a) := Terminated(block)]
  {
    var header := HeaderText(a, b, c, d);
    StepHeaderNumbers(st, a, b, c, d);
    AfterHeaderBlock(st, header, block);
  }

  lemma AfterHeaderBlock(st: State, header: string, block: seq<string>)
    requires WellFormed(st)
    requires Step(st, header).Success?
    requires Step(st, header).value.report == st.report[header := map[]]
    requires !Step(st, header).value.runOpen && Step(st, header).value.hunk == header
    requires |block| >= 1 && AllChange(block)
    ensures Run(st, [header] + block).Success?
    ensures header in Run(st, [header] + block).value.report
    ensures var next := Step(st, header).value;
            Run(st, [header] + block).value.report[header]
            == map[(if Classify(block[0]) == Added then next.newLine else next.oldLine) := Terminated(block)]
  {
    var next := Step(st, header).value;
    StepWellFormed(st, header);
    assert next.hunk != "" by {
      assert next.hunk in next.report;
    }
    RunCons(st, header, block);
    RunBlock(next, block);
    FirstBlock(next, block);
  }

  /** The first block after a header is the hunk's only run. */
  lemma FirstBlock(st: State, block: seq<string>)
    requires WellFormed(st) && st.hunk != "" && !st.runOpen && st.report[st.hunk] == map[]
    requires |block| >= 1
    ensures AfterBlock(st, block).report[st.hunk] == map[AnchorFor(st, block[0]) := Terminated(block)]
  {
    assert TextBefore(st) + Terminated(block) == Terminated(block);
  }

  /** Between two headers the old counter advances by one per `-` and
      context line and the new counter by one per `+` and context line, so
      neither ever decreases; the current hunk stays the same. */
  lemma {:induction false} CountersBetweenHeaders(st: State, lines: seq<string>)
    requires forall i | 0 <= i < |lines| :: Classify(lines[i]) != Header
    requires Run(st, lines).Success?
    ensures var r := Run(st, lines).value;
            && r.hunk == st.hunk
            && r.oldLine == st.oldLine + Count(lines, Removed) + Count(lines, Context)
            && r.newLine == st.newLine + Count(lines, Added) + Count(lines, Context)
            && r.oldLine >= st.oldLine && r.newLine >= st.newLine
    decreases |lines|
  {
    if |lines| > 0 {
      var next := Step(st, lines[0]).value;
      CountersBetweenHeaders(next, lines[1..]);
    }
  }

  /** Two states that agree on everything the current hunk's future depends
      on. */
  predicate Agree(s: State, t: State) {
    && s.oldLine == t.oldLine && s.newLine == t.newLine
    && s.hunk == t.hunk && s.hunk in s.report && s.hunk in t.report
    && s.report[s.hunk] == t.report[s.hunk]
    && s.runOpen == t.runOpen
    && (s.runOpen ==> s.anchor == t.anchor && s.anchor in s.report[s.hunk])
  }

  lemma StepAgree(s: State, t: State, line: string)
    requires Agree(s, t)
    requires Classify(line) != Header
    ensures Step(s, line).Success? && Step(t, line).Success?
    ensures Agree(Step(s, line).value, Step(t, line).value)
  {
  }

  lemma {:induction false} RunAgree(s: State, t: State, lines: seq<string>)
    requires Agree(s, t)
    requires forall i | 0 <= i < |lines| :: Classify(lines[i]) != Header
    ensures Run(s, lines).Success? && Run(t, lines).Success?
    ensures Agree(Run(s, lines).value, Run(t, lines).value)
    ensures Run(s, lines).value.hunk == s.hunk
    decreases |lines|
  {
    if |lines| > 0 {
      StepAgree(s, t, lines[0]);
      RunAgree(Step(s, lines[0]).value, Step(t, lines[0]).value, lines[1..]);
    }
  }

  /** Hunks are independent: whatever state the previous hunks left behind,
      a valid header followed by header-free lines never raises and produces
      the same runs for that header and the same counters. */
  lemma HunkIndependence(s: State, t: State, header: string, body: seq<string>)
    requires ValidHeader(header)
    requires forall i | 0 <= i < |body| :: Classify(body[i]) != Header
    ensures Run(s, [header] + body).Success? && Run(t, [header] + body).Success?
    ensures var rs := Run(s, [header] + body).value;
            var rt := Run(t, [header] + body).value;
            && header in rs.report && header in rt.report
            && rs.report[header] == rt.report[header]
            && rs.oldLine == rt.oldLine && rs.newLine == rt.newLine
  {
    StepValidHeader(s, header);
    StepValidHeader(t, header);
    var s1 := Step(s, header).value;
    var t1 := Step(t, header).value;
    assert Agree(s1, t1);
    RunCons(s, header, body);
    RunCons(t, header, body);
    RunAgree(s1, t1, body);
  }

  /** Lines other than `h` itself never touch the runs recorded under `h` once
      another hunk is current: the loop writes only to the current hunk's
      runs, and only the line `h` could reset them. */
  lemma {:induction false} RunKeepsOtherHunk(st: State, lines: seq<string>, h: string)
    requires Run(st, lines).Success?
    requires h != st.hunk && h in st.report
    requires forall i | 0 <= i < |lines| :: lines[i] != h
    ensures h in Run(st, lines).value.report
    ensures Run(st, lines).value.report[h] == st.report[h]
    decreases |lines|
  {
    if |lines| > 0 {
      StepKeepsOtherHunk(st, lines[0], h);
      RunKeepsOtherHunk(Step(st, lines[0]).value, lines[1..], h);
    }
  }

  /** One line other than `h` leaves `h`'s runs alone and does not make `h`
      current. */
  lemma StepKeepsOtherHunk(st: State, line: string, h: string)
    requires Step(st, line).Success?
    requires h != st.hunk && h in st.report && line != h
    ensures h != Step(st, line).value.hunk && h in Step(st, line).value.report
    ensures Step(st, line).value.report[h] == st.report[h]
  {
    match Classify(line)
    case Header =>
      HeaderKeepsOther(st, line, h);
    case Added =>
      var s :| AppendToRun(st, line, st.newLine) == Success(s);
      assert s.report[h] == st.report[h];
    case Removed =>
      var s :| AppendToRun(st, line, st.oldLine) == Success(s);
      assert s.report[h] == st.report[h];
    case _ =>
  }

  /** A header line resets only its own runs. */
  lemma HeaderKeepsOther(st: State, line: string, h: string)
    requires Classify(line) == Header && Step(st, line).Success?
    requires h in st.report && line != h
    ensures h in Step(st, line).value.report && Step(st, line).value.report[h] == st.report[h]
    ensures Step(st, line).value.hunk == line
  {
    assert ValidHeader(line) by {
      assert Step(st, line) == OpenHunk(st, line);
    }
    StepValidHeader(st, line);
  }

  /** A second hunk leaves the runs of a first one, with another header,
      as they were. */
  lemma SecondHunkKeepsFirst(st: State, h2: string, block: seq<string>, h1: string)
    requires Classify(h1) == Header && Classify(h2) == Header && h1 != h2
    requires AllChange(block)
    requires h1 in st.report
    requires Run(st, [h2] + block).Success?
    ensures h1 in Run(st, [h2] + block).value.report
    ensures Run(st, [h2] + block).value.report[h1] == st.report[h1]
  {
    RunCons(st, h2, block);
    HeaderKeepsOther(st, h2, h1);
    var s2 := Step(st, h2).value;
    forall i | 0 <= i < |block|
      ensures block[i] != h1
    {
      assert IsChange(block[i]);
    }
    RunKeepsOtherHunk(s2, block, h1);
  }

  /** A diff of two hunks with different headers, each a block of changes:
      the report records both, each with its block as its only run under
      the anchor its own header gives. Neither hunk is dropped or merged
      into the other. */
  lemma TwoHunks(st: State, a: nat, b: nat, c: nat, d: nat, block1: seq<string>,
                 e: nat, f: nat, g: nat, k: nat, block2: seq<string>)
    requires WellFormed(st)
    requires |block1| >= 1 && AllChange(block1)
    requires |block2| >= 1 && AllChange(block2)
    requires HeaderText(a, b, c, d) != HeaderText(e, f, g, k)
    ensures var h1 := HeaderText(a, b, c, d);
            var h2 := HeaderText(e, f, g, k);
            var r := Run(st, ([h1] + block1) + ([h2] + block2));
            && r.Success? && h1 in r.value.report && h2 in r.value.report
            && r.value.report[h1] == map[(if Classify(block1[0]) == Added then c else a) := Terminated(block1)]
            && r.value.report[h2] == map[(if Classify(block2[0]) == Added then g else e) := Terminated(block2)]
  {
    var h1 := HeaderText(a, b, c, d);
    var h2 := HeaderText(e, f, g, k);
    HeaderThenBlock(st, a, b, c, d, block1);
    RunWellFormed(st, [h1] + block1);
    var mid := Run(st, [h1] + block1).value;
    RunAppend(st, [h1] + block1, [h2] + block2);
    HeaderThenBlock(mid, e, f, g, k, block2);
    StepHeaderNumbers(st, a, b, c, d);
    StepHeaderNumbers(mid, e, f, g, k);
    ValidHeaderIsHeader(h1);
    ValidHeaderIsHeader(h2);
    SecondHunkKeepsFirst(mid, h2, block2, h1);
  }

  /** A line the header pattern accepts starts with `@@`. */
  lemma ValidHeaderIsHeader(line: string)
    requires ValidHeader(line)
    ensures Classify(line) == Header
  {
    var p := ParseHeader(line).value;
    ParseHeaderSound(line);
    var pre := "@@ " + p.0 + " " + p.1 + " @@";
    assert line[..|pre|] == pre;
    assert line[0] == pre[0] && line[1] == pre[1];
  }

  /** The fold over a concatenation is the fold over the second part, started
      where the fold over the first part stopped. */
  lemma {:induction false} RunAppend(st: State, a: seq<string>, b: seq<string>)
    ensures Run(st, a + b)
            == if Run(st, a).Failure? then Failure(Run(st, a).error) else Run(Run(st, a).value, b)
    decreases |a|
  {
    if |a| == 0 {
      assert a + b == b;
    } else {
      assert (a + b)[0] == a[0] && (a + b)[1..] == a[1..] + b;
      if Step(st, a[0]).Success? {
        RunAppend(Step(st, a[0]).value, a[1..], b);
      }
    }
  }

  /** Every line is a context line. */
  predicate AllContext(lines: seq<string>) {
    forall i | 0 <= i < |lines| :: Classify(lines[i]) == Context
  }

  /** Inside a hunk, between runs. */
  predicate BetweenRuns(st: State) {
    WellFormed(st) && st.hunk != "" && !st.runOpen
  }

  /** Context lines advance both counters once each, close the run and
      record nothing. */
  lemma {:induction false} ContextLines(st: State, lines: seq<string>)
    requires |lines| >= 1
    requires AllContext(lines)
    ensures Run(st, lines) == Success(st.(oldLine := st.oldLine + |lines|,
                                          newLine := st.newLine + |lines|,
                                          runOpen := false))
    decreases |lines|
  {
    var next := st.(oldLine := st.oldLine + 1, newLine := st.newLine + 1, runOpen := false);
    assert Classify(lines[0]) == Context;
    assert Step(st, lines[0]) == Success(next);
    if |lines| > 1 {
      assert AllContext(lines[1..]) by {
        forall i | 0 <= i < |lines| - 1
          ensures Classify(lines[1..][i]) == Context
        {
          assert lines[1..][i] == lines[i + 1];
        }
      }
      ContextLines(next, lines[1..]);
    }
  }

  /** Runs under one hunk share a single map keyed by old line numbers
      (runs starting with `-`) and by new line numbers (runs starting with
      `+`). When the new counter has caught up with the line a removal was
      filed under, a later addition opens its run on that same key, resets
      it, and the removal's text is gone. */
  lemma RunOverwrite(st: State, removal: string, contexts: seq<string>, addition: string)
    requires BetweenRuns(st)
    requires Classify(removal) == Removed && Classify(addition) == Added
    requires |contexts| >= 1 && AllContext(contexts)
    requires st.newLine + |contexts| == st.oldLine
    ensures Run(st, [removal] + contexts + [addition]).Success?
    ensures Run(st, [removal] + contexts + [addition]).value.report
            == st.report[st.hunk := st.report[st.hunk][st.oldLine := addition + "\n"]]
  {
    OverwriteSteps(st, removal, contexts, addition);
    OverwriteReport(st, removal, contexts, addition);
  }

  /** The whole pass over a hunk `@@ -a,b +c,d @@` whose body is a removal,
      `a - c` context lines and an addition: the hunk ends up with the
      addition alone, under `a`. */
  lemma HeaderThenOverwrite(st: State, a: nat, b: nat, c: nat, d: nat,
                            removal: string, contexts: seq<string>, addition: string)
    requires WellFormed(st)
    requires Classify(removal) == Removed && Classify(addition) == Added
    requires |contexts| >= 1 && AllContext(contexts)
    requires c + |contexts| == a
    ensures var header := HeaderText(a, b, c, d);
            var r := Run(st, [header] + ([removal] + contexts + [addition]));
            && r.Success? && header in r.value.report
            && r.value.report[header] == map[a := addition + "\n"]
  {
    var header := HeaderText(a, b, c, d);
    var body := [removal] + contexts + [addition];
    StepHeaderNumbers(st, a, b, c, d);
    StepWellFormed(st, header);
    var s1 := Step(st, header).value;
    RunCons(st, header, body);
    RunOverwrite(s1, removal, contexts, addition);
    assert s1.report[header] == map[];
    assert map[][a := addition + "\n"] == map[a := addition + "\n"];
  }

  /** The state after `line` opens a run under `anchor`. */
  function OpenedRun(st: State, anchor: int, line: string): State
    requires st.hunk in st.report
  {
    var plus := Classify(line) == Added;
    st.(oldLine := if plus then st.oldLine else st.oldLine + 1,
        newLine := if plus then st.newLine + 1 else st.newLine,
        anchor := anchor, runOpen := true,
        report := st.report[st.hunk := st.report[st.hunk][anchor := line + "\n"]])
  }

  /** With no run open, a `+` line opens one under the new counter and a `-`
      line one under the old counter, holding just that line. */
  lemma StartRun(st: State, line: string)
    requires BetweenRuns(st)
    requires IsChange(line)
    ensures Step(st, line)
            == Success(OpenedRun(st, if Classify(line) == Added then st.newLine else st.oldLine, line))
    ensures WellFormed(Step(st, line).value)
  {
    StepChange(st, line);
    StepWellFormed(st, line);
    OpenedRunIsAfterChange(st, line);
  }

  /** With no run open, `OpenedRun` at the anchor a line picks is the state
      `AfterChange` describes. */
  lemma OpenedRunIsAfterChange(st: State, line: string)
    requires BetweenRuns(st)
    ensures OpenedRun(st, AnchorFor(st, line), line) == AfterChange(st, line)
  {
    assert "" + line + "\n" == line + "\n";
  }

  /** The state after a removal has opened a run and context lines have
      closed it again. */
  function AfterContexts(st: State, removal: string, contexts: seq<string>): State
    requires st.hunk in st.report
  {
    var s2 := OpenedRun(st, st.oldLine, removal);
    s2.(oldLine := s2.oldLine + |contexts|, newLine := s2.newLine + |contexts|, runOpen := false)
  }

  /** A removal that opens a run, then context lines that close it. */
  lemma RemovalThenContexts(st: State, removal: string, contexts: seq<string>)
    requires BetweenRuns(st)
    requires Classify(removal) == Removed
    requires |contexts| >= 1 && AllContext(contexts)
    ensures Run(st, [removal] + contexts) == Success(AfterContexts(st, removal, contexts))
    ensures BetweenRuns(AfterContexts(st, removal, contexts))
    ensures AfterContexts(st, removal, contexts).newLine == st.newLine + |contexts|
  {
    StartRun(st, removal);
    var s2 := OpenedRun(st, st.oldLine, removal);
    RunCons(st, removal, contexts);
    ContextLines(s2, contexts);
  }

  lemma OverwriteSteps(st: State, removal: string, contexts: seq<string>, addition: string)
    requires BetweenRuns(st)
    requires Classify(removal) == Removed && Classify(addition) == Added
    requires |contexts| >= 1 && AllContext(contexts)
    requires st.newLine + |contexts| == st.oldLine
    ensures Run(st, [removal] + contexts + [addition])
            == Success(OpenedRun(AfterContexts(st, removal, contexts), st.oldLine, addition))
  {
    RemovalThenContexts(st, removal, contexts);
    RunAppend(st, [removal] + contexts, [addition]);
    LoneAddition(AfterContexts(st, removal, contexts), addition);
  }

  lemma LoneAddition(st: State, addition: string)
    requires BetweenRuns(st)
    requires Classify(addition) == Added
    ensures Run(st, [addition]) == Success(OpenedRun(st, st.newLine, addition))
  {
    StartRun(st, addition);
    RunCons(st, addition, []);
    assert [addition] + [] == [addition];
  }

  lemma OverwriteReport(st: State, removal: string, contexts: seq<string>, addition: string)
    requires st.hunk in st.report
    requires Classify(addition) == Added
    ensures OpenedRun(AfterContexts(st, removal, contexts), st.oldLine, addition).report
            == st.report[st.hunk := st.report[st.hunk][st.oldLine := addition + "\n"]]
  {
    var h, o := st.hunk, st.oldLine;
    var runs := st.report[h][o := removal + "\n"][o := addition + "\n"];
    assert runs == st.report[h][o := addition + "\n"];
    assert st.report[h := st.report[h][o := removal + "\n"]][h := runs] == st.report[h := runs];
  }
}

=== FILE: diff_scenarios.dfy ===
/** Concrete diffs worked through the model: the usual single-hunk rename,
    the error cases, and a diff whose second run overwrites the first. */
module DiffScenarios {

  import opened Wrappers
  import opened Strings
  import opened HunkHeader
  import opened UnifiedDiff
  import opened DiffProperties

  /** File headers are skipped; the removal and the addition that follows it
      form one run under old line 1; the context line records nothing. */
  lemma RenameImport(st: State)
    requires WellFormed(st)
    ensures var header := "@@ -1,2 +1,2 @@";
            var lines := ["--- a.py", "+++ b.py", header,
                          "-import ConfigParser", "+import configparser", " x = 1"];
            && Run(st, lines).Success?
            && header in Run(st, lines).value.report
            && Run(st, lines).value.report[header]
               == map[1 := "-import ConfigParser\n+import configparser\n"]
  {
    var header := "@@ -1,2 +1,2 @@";
    var files := ["--- a.py", "+++ b.py"];
    var block := ["-import ConfigParser", "+import configparser"];
    var context := " x = 1";
    var lines := ["--- a.py", "+++ b.py", header,
                  "-import ConfigParser", "+import configparser", " x = 1"];
    assert lines == files + (([header] + block) + [context]);
    RunAppend(st, files, ([header] + block) + [context]);
    SkipFileHeaders(st);
    RunAppend(st, [header] + block, [context]);
    BlockIsChange();
    HeaderTextOneTwo();
    HeaderThenBlock(st, 1, 2, 1, 2, block);
    var mid := Run(st, [header] + block).value;
    RunCons(mid, context, []);
    StepContext(mid, context);
    assert [context] + [] == [context];
    assert Run(st, lines) == Run(mid, [context]);
    var last := mid.(oldLine := mid.oldLine + 1, newLine := mid.newLine + 1, runOpen := false);
    assert Run(mid, [context]) == Success(last);
    RenameImportText();
    assert last.report[header] == mid.report[header] == map[1 := Terminated(block)];
  }

  lemma RenameImportText()
    ensures Terminated(["-import ConfigParser", "+import configparser"])
            == "-import ConfigParser\n+import configparser\n"
  {
    var block := ["-import ConfigParser", "+import configparser"];
    assert block[1..][1..] == [];
  }

  lemma SkipFileHeaders(st: State)
    ensures Run(st, ["--- a.py", "+++ b.py"]) == Success(st)
  {
    StepInert(st, "--- a.py");
    StepInert(st, "+++ b.py");
    assert ["--- a.py", "+++ b.py"][1..] == ["+++ b.py"];
    assert ["+++ b.py"][1..] == [];
  }

  lemma BlockIsChange()
    ensures Classify("-import ConfigParser") == Removed
    ensures Classify("+import configparser") == Added
  {
  }

  lemma HeaderTextOneTwo()
    ensures HeaderText(1, 2, 1, 2) == "@@ -1,2 +1,2 @@"
  {
    assert ShowNat(1) == "1" && ShowNat(2) == "2";
  }

  /** An `@@` line the pattern does not match stops the whole pass. */
  lemma GarbageHeader(st: State, line: string)
    requires line == "@@ garbage @@"
    ensures Run(st, [line]) == Failure(MalformedHeader(line))
  {
    assert line[4] == 'a';
    if ParseHeader(line).Some? {
      ParseHeaderDigit(line);
      assert false;
    }
    assert Classify(line) == Header;
  }

  /** A `+` line ahead of every header stops the pass: the current hunk key
      `''` has no entry. */
  lemma AddedBeforeHeader()
    ensures Run(Initial, ["+x", "@@ -1 +1 @@"]) == Failure(NoCurrentHunk("+x"))
  {
  }

  /** A header whose first group starts with a comma matches the pattern
      but leaves no digits for the start number. */
  lemma CommaStart(st: State, line: string)
    requires line == "@@ ,1 +1 @@"
    ensures Run(st, [line]) == Failure(MissingStart(line))
  {
    var g1, g2 := ",1", "+1";
    assert DigitPrefix(g1[1..]) == 1;
    assert DigitPrefix(g2[1..]) == 1;
    assert line == "@@ " + g1 + " " + g2 + " @@" + "";
    ParseHeaderComplete(line, g1, g2);
  }

  /** The pitfall of keying runs by old and new line numbers in one map: in
      `@@ -5,5 +1,5 @@` the removal `-a` is filed under old line 5, and after
      four context lines the addition `+f` is filed under new line 5, which
      resets that entry to `''` first. The removal is lost. */
  lemma LaterRunOverwritesEarlier(st: State)
    requires WellFormed(st)
    ensures var header := "@@ -5,5 +1,5 @@";
            var lines := [header, "-a", " b", " c", " d", " e", "+f"];
            && Run(st, lines).Success?
            && header in Run(st, lines).value.report
            && Run(st, lines).value.report[header] == map[5 := "+f\n"]
  {
    OverwriteLines(st, "@@ -5,5 +1,5 @@", ["@@ -5,5 +1,5 @@", "-a", " b", " c", " d", " e", "+f"]);
  }

  lemma OverwriteLines(st: State, header: string, lines: seq<string>)
    requires WellFormed(st)
    requires header == "@@ -5,5 +1,5 @@"
    requires lines == [header, "-a", " b", " c", " d", " e", "+f"]
    ensures Run(st, lines).Success?
    ensures header in Run(st, lines).value.report
    ensures Run(st, lines).value.report[header] == map[5 := "+f\n"]
  {
    var contexts := OverwriteShape(header, lines);
    assert "+f" + "\n" == "+f\n";
    HeaderThenOverwrite(st, 5, 5, 1, 5, "-a", contexts, "+f");
  }

  /** The literal lines of the scenario in the shape the general lemma takes. */
  lemma OverwriteShape(header: string, lines: seq<string>) returns (contexts: seq<string>)
    requires header == "@@ -5,5 +1,5 @@"
    requires lines == [header, "-a", " b", " c", " d", " e", "+f"]
    ensures header == HeaderText(5, 5, 1, 5)
    ensures lines == [header] + (["-a"] + contexts + ["+f"])
    ensures |contexts| == 4
    ensures AllContext(contexts)
    ensures Classify("-a") == Removed && Classify("+f") == Added
  {
    contexts := [" b", " c", " d", " e"];
    assert lines == [header] + (["-a"] + contexts + ["+f"]);
    HeaderTextFive();
    FourContexts(contexts);
  }

  lemma FourContexts(contexts: seq<string>)
    requires contexts == [" b", " c", " d", " e"]
    ensures AllContext(contexts)
  {
  }

  lemma HeaderTextFive()
    ensures HeaderText(5, 5, 1, 5) == "@@ -5,5 +1,5 @@"
  {
    assert ShowNat(5) == "5" && ShowNat(1) == "1";
  }
}

=== FILE: fixer_selection.dfy ===
/** Which fixers `main` loads: the `-x`/`--nofix` names are resolved against
    the available fixers and become unwanted (an unknown name stops with exit
    status 2), the unicode and six options add more unwanted fixers, the
    `-f`/`--fix` names (with the keyword `default`) form the requested set,
    and what is loaded is the requested set minus the unwanted one.

    The available fixers are given as a sequence: the order in which Python
    happens to iterate over the set, which decides the match when several
    fixers fit one name. */
module FixerSelection {

  import opened Wrappers
  import opened Strings

  const UnicodeFixer := "libmodernize.fixes.fix_unicode"
  const UnicodeFutureFixer := "libmodernize.fixes.fix_unicode_future"
  const DefaultKeyword := "default"

  /** The options that take part: `-x` and `-f` as given (each may hold
      several comma-separated names), `--six-unicode`, `--future-unicode`
      and `--no-six`. */
  datatype Options = Options(
    nofix: seq<string>,
    fix: seq<string>,
    sixUnicode: bool,
    futureUnicode: bool,
    noSix: bool)

  /** The fixers to run and the subset of them that were asked for by name. */
  datatype Selection = Selection(fixerNames: set<string>, explicit: set<string>)

  /** `Error: fix '<name>' was not found`, exit status 2. */
  datatype SelectError = FixNotFound(name: string)

  /** A user-supplied name designates fixer `tgt` when it is the full module
      name or `tgt` ends with `.fix_<name>`. */
  predicate Designates(tgt: string, name: string) {
    tgt == name || EndsWith(tgt, ".fix_" + name)
  }

  /** All option values split at commas, in order. */
  function SplitNames(args: seq<string>): (r: seq<string>)
    ensures forall i | 0 <= i < |r| :: ',' !in r[i]
    ensures |r| >= |args|
    ensures forall n :: n in r <==> exists k | 0 <= k < |args| :: n in Split(args[k], ',')
  {
    if |args| == 0 then [] else Split(args[0], ',') + SplitNames(args[1..])
  }

  /** The names of several option values are those of the first values
      followed by those of the rest. */
  lemma {:induction false} SplitNamesAppend(a: seq<string>, b: seq<string>)
    ensures SplitNames(a + b) == SplitNames(a) + SplitNames(b)
    decreases |a|
  {
    if |a| == 0 {
      assert a + b == b;
    } else {
      assert (a + b)[0] == a[0] && (a + b)[1..] == a[1..] + b;
      SplitNamesAppend(a[1..], b);
    }
  }

  /** A single option value gives exactly its own comma-separated pieces. */
  lemma SplitNamesSingle(x: string)
    ensures SplitNames([x]) == Split(x, ',')
  {
    assert [x][1..] == [];
  }

  /** The inner `for tgt in avail_fixes` loop: the first available fixer, in
      iteration order, that the name designates. */
  function FindFixer(avail: seq<string>, name: string): (r: Option<string>)
    ensures r.Some? ==> r.value in avail && Designates(r.value, name)
    ensures r.None? ==> forall t | t in avail :: !Designates(t, name)
  {
    if |avail| == 0 then None
    else if Designates(avail[0], name) then Some(avail[0])
    else FindFixer(avail[1..], name)
  }

  /** When several fixers fit, the one found comes first in iteration order. */
  lemma {:induction false} FindFixerFirst(avail: seq<string>, name: string)
    requires FindFixer(avail, name).Some?
    ensures exists i | 0 <= i < |avail| ::
              && avail[i] == FindFixer(avail, name).value
              && forall j | 0 <= j < i :: !Designates(avail[j], name)
  {
    if !Designates(avail[0], name) {
      FindFixerFirst(avail[1..], name);
      var i :| 0 <= i < |avail[1..]|
               && avail[1..][i] == FindFixer(avail[1..], name).value
               && forall j | 0 <= j < i :: !Designates(avail[1..][j], name);
      assert forall j | 1 <= j < i + 1 :: avail[j] == avail[1..][j - 1];
      assert avail[i + 1] == FindFixer(avail, name).value;
    } else {
      assert avail[0] == FindFixer(avail, name).value;
    }
  }

  /** The `-x` loop: every name must designate an available fixer, and the
      fixers found are unwanted; the first name that designates none is the
      error. */
  function ResolveUnwanted(avail: seq<string>, names: seq<string>): (r: Result<set<string>, SelectError>)
    ensures r.Failure? <==> exists i | 0 <= i < |names| :: FindFixer(avail, names[i]).None?
    ensures r.Success? ==> forall t :: t in r.value <==>
              exists i | 0 <= i < |names| :: FindFixer(avail, names[i]) == Some(t)
  {
    if |names| == 0 then Success({})
    else
      match FindFixer(avail, names[0])
      case None => Failure(FixNotFound(names[0]))
      case Some(t) =>
        var rest := ResolveUnwanted(avail, names[1..]);
        assert forall i | 1 <= i < |names| :: names[i] == names[1..][i - 1];
        if rest.Failure? then
          Failure(rest.error)
        else
          Success({t} + rest.value)
  }

  /** The name reported is the first, in command-line order, that designates
      no available fixer. */
  lemma {:induction false} FirstUnknownReported(avail: seq<string>, names: seq<string>)
    requires ResolveUnwanted(avail, names).Failure?
    ensures exists i | 0 <= i < |names| ::
              && names[i] == ResolveUnwanted(avail, names).error.name
              && FindFixer(avail, names[i]).None?
              && forall j | 0 <= j < i :: FindFixer(avail, names[j]).Some?
  {
    if FindFixer(avail, names[0]).None? {
      assert names[0] == ResolveUnwanted(avail, names).error.name;
    } else {
      FirstUnknownReported(avail, names[1..]);
      var i :| 0 <= i < |names[1..]|
               && names[1..][i] == ResolveUnwanted(avail, names[1..]).error.name
               && FindFixer(avail, names[1..][i]).None?
               && forall j | 0 <= j < i :: FindFixer(avail, names[1..][j]).Some?;
      assert forall j | 1 <= j < i + 1 :: names[j] == names[1..][j - 1];
      assert names[i + 1] == ResolveUnwanted(avail, names).error.name;
    }
  }

  /** What an `-f` name stands for: the fixer it designates, or, for a
      non-standard fixer, the name itself. */
  function ResolveOrKeep(avail: seq<string>, name: string): string {
    match FindFixer(avail, name)
    case Some(t) => t
    case None => name
  }

  /** The `-f` loop: every name except `default` contributes the fixer it
      stands for. */
  function ResolveExplicit(avail: seq<string>, names: seq<string>): (r: set<string>)
    ensures forall t :: t in r <==>
              exists i | 0 <= i < |names| :: names[i] != DefaultKeyword && ResolveOrKeep(avail, names[i]) == t
  {
    if |names| == 0 then {}
    else
      var rest := ResolveExplicit(avail, names[1..]);
      assert forall i | 1 <= i < |names| :: names[i] == names[1..][i - 1];
      (if names[0] == DefaultKeyword then {} else {ResolveOrKeep(avail, names[0])}) + rest
  }

  /** The unicode fixers the options rule out: only `fix_unicode_future`
      with `--six-unicode`, otherwise only `fix_unicode` with
      `--future-unicode`, otherwise both. */
  function UnicodeUnwanted(opts: Options): set<string> {
    if opts.sixUnicode then {UnicodeFutureFixer}
    else if opts.futureUnicode then {UnicodeFixer}
    else {UnicodeFixer, UnicodeFutureFixer}
  }

  /** Fixer selection in `main`. `avail` lists the available fixers,
      `optIn` the ones that are not run by default and `six` the ones that
      depend on the six package. */
  function Select(avail: seq<string>, optIn: set<string>, six: set<string>, opts: Options)
    : (r: Result<Selection, SelectError>)
    ensures r.Failure? <==>
              exists i | 0 <= i < |SplitNames(opts.nofix)| :: FindFixer(avail, SplitNames(opts.nofix)[i]).None?
    ensures r.Success? ==> r.value.explicit <= r.value.fixerNames
    ensures r.Success? && UnicodeFixer in r.value.fixerNames ==> opts.sixUnicode
    ensures r.Success? && UnicodeFutureFixer in r.value.fixerNames ==> !opts.sixUnicode && opts.futureUnicode
    ensures r.Success? && opts.noSix ==> r.value.fixerNames !! six
    ensures r.Success? && opts.fix == [] ==>
              forall t | t in r.value.fixerNames :: t in avail && t !in optIn
  {
    var byName := ResolveUnwanted(avail, SplitNames(opts.nofix));
    if byName.Failure? then
      assert exists i | 0 <= i < |SplitNames(opts.nofix)| :: FindFixer(avail, SplitNames(opts.nofix)[i]).None?;
      Failure(byName.error)
    else
    var unwantedByName := byName.value;
    var defaults := set t | t in avail && t !in optIn;
    var unwanted := unwantedByName + UnicodeUnwanted(opts) + (if opts.noSix then six else {});
    var pieces := SplitNames(opts.fix);
    var explicit := ResolveExplicit(avail, pieces);
    var requested :=
      if opts.fix != [] then
        (if DefaultKeyword in pieces then defaults + explicit else explicit)
      else defaults;
    var fixerNames := requested - unwanted;
    Success(Selection(fixerNames, explicit * fixerNames))
  }

  /** Ruled out for `x`: named by `-x`, an excluded unicode fixer, or a six
      fixer under `--no-six`. */
  predicate Excluded(avail: seq<string>, six: set<string>, opts: Options, x: string) {
    var names := SplitNames(opts.nofix);
    || (exists i | 0 <= i < |names| :: FindFixer(avail, names[i]) == Some(x))
    || (x == UnicodeFixer && !opts.sixUnicode)
    || (x == UnicodeFutureFixer && (opts.sixUnicode || !opts.futureUnicode))
    || (opts.noSix && x in six)
  }

  /** Named by an `-f` name other than `default`. */
  predicate AskedFor(avail: seq<string>, opts: Options, x: string) {
    var pieces := SplitNames(opts.fix);
    exists i | 0 <= i < |pieces| :: pieces[i] != DefaultKeyword && ResolveOrKeep(avail, pieces[i]) == x
  }

  /** The default fixers take part: no `-f` at all, or `-f default`. */
  predicate DefaultsWanted(opts: Options) {
    opts.fix == [] || DefaultKeyword in SplitNames(opts.fix)
  }

  /** Element by element: a fixer is loaded exactly when it is a default
      fixer and the defaults are wanted, or was asked for with `-f`, and it
      is not ruled out; it counts as explicit exactly when it is loaded and
      was asked for with `-f`. */
  lemma SelectMembers(avail: seq<string>, optIn: set<string>, six: set<string>, opts: Options, x: string)
    requires Select(avail, optIn, six, opts).Success?
    ensures var sel := Select(avail, optIn, six, opts).value;
            && (x in sel.fixerNames <==>
                  && ((x in avail && x !in optIn && DefaultsWanted(opts)) || AskedFor(avail, opts, x))
                  && !Excluded(avail, six, opts, x))
            && (x in sel.explicit <==> x in sel.fixerNames && AskedFor(avail, opts, x))
  {
    var unwantedByName := ResolveUnwanted(avail, SplitNames(opts.nofix)).value;
    assert x in unwantedByName + UnicodeUnwanted(opts) + (if opts.noSix then six else {})
           <==> Excluded(avail, six, opts, x);
    assert x in ResolveExplicit(avail, SplitNames(opts.fix)) <==> AskedFor(avail, opts, x);
  }

  /** Every `-x` name removes the fixer it designates. */
  lemma NofixRemoves(avail: seq<string>, optIn: set<string>, six: set<string>, opts: Options, i: int)
    requires Select(avail, optIn, six, opts).Success?
    requires 0 <= i < |SplitNames(opts.nofix)|
    ensures FindFixer(avail, SplitNames(opts.nofix)[i]).Some?
    ensures FindFixer(avail, SplitNames(opts.nofix)[i]).value !in Select(avail, optIn, six, opts).value.fixerNames
  {
    var t := FindFixer(avail, SplitNames(opts.nofix)[i]).value;
    SelectMembers(avail, optIn, six, opts, t);
  }

  /** An `-f` name that designates no available fixer is kept as given in
      `fixer_names` and `explicit`, unless it is ruled out. */
  lemma UnknownFixKept(avail: seq<string>, optIn: set<string>, six: set<string>, opts: Options, i: int)
    requires Select(avail, optIn, six, opts).Success?
    requires 0 <= i < |SplitNames(opts.fix)|
    requires SplitNames(opts.fix)[i] != DefaultKeyword
    requires FindFixer(avail, SplitNames(opts.fix)[i]).None?
    requires !Excluded(avail, six, opts, SplitNames(opts.fix)[i])
    ensures SplitNames(opts.fix)[i] in Select(avail, optIn, six, opts).value.explicit
  {
    var n := SplitNames(opts.fix)[i];
    assert ResolveOrKeep(avail, n) == n;
    assert AskedFor(avail, opts, n);
    SelectMembers(avail, optIn, six, opts, n);
  }

  /** `-f` without `default` loads only what was asked for by name. */
  lemma OnlyAskedFor(avail: seq<string>, optIn: set<string>, six: set<string>, opts: Options)
    requires Select(avail, optIn, six, opts).Success?
    requires opts.fix != [] && DefaultKeyword !in SplitNames(opts.fix)
    ensures Select(avail, optIn, six, opts).value.fixerNames == Select(avail, optIn, six, opts).value.explicit
  {
    var sel := Select(avail, optIn, six, opts).value;
    forall x | x in sel.fixerNames
      ensures x in sel.explicit
    {
      SelectMembers(avail, optIn, six, opts, x);
    }
  }
}

=== FILE: hunk_header.dfy ===
/** The hunk-header pattern of `process_unified_diff`,
        @@ (.[0-9]+\,?[0-9]*) (.[0-9]+\,?[0-9]*) @@
    applied with `re.match` (anchored at the start only), together with the
    extraction of a start line number from a matched group. The pattern is
    given twice: `HeaderMatches` says declaratively what a match is, and
    `ParseHeader` finds one by scanning; the two are proved to agree. */
module HunkHeader {

  import opened Wrappers
  import opened Strings

  /** The part of a group after its first character, `[0-9]+\,?[0-9]*`:
      a non-empty digit run, optionally followed by one comma and more digits. */
  predicate IsGroupTail(t: string) {
    var d := DigitPrefix(t);
    d >= 1 && (d == |t| || (t[d] == ',' && AllDigits(t[d + 1..])))
  }

  /** One capture group, `.[0-9]+\,?[0-9]*`: any character but a newline
      (the sign, in a well-formed header), then a group tail. */
  predicate IsGroup(g: string) {
    |g| >= 2 && g[0] != '\n' && IsGroupTail(g[1..])
  }

  /** `re.match` succeeds on `line` with groups `g1` and `g2`: the line begins
      with `@@ g1 g2 @@`; whatever follows is allowed. */
  predicate HeaderMatches(line: string, g1: string, g2: string) {
    IsGroup(g1) && IsGroup(g2) && "@@ " + g1 + " " + g2 + " @@" <= line
  }

  /** Length of the longest space-free prefix of `s`. */
  function NonSpacePrefix(s: string): (n: nat)
    ensures n <= |s|
    ensures forall i | 0 <= i < n :: s[i] != ' '
    ensures n < |s| ==> s[n] == ' '
  {
    if |s| == 0 || s[0] == ' ' then 0 else 1 + NonSpacePrefix(s[1..])
  }

  /** A group tail holds only digits and at most one comma, so never a space. */
  lemma GroupTailHasNoSpace(t: string)
    requires IsGroupTail(t)
    ensures forall i | 0 <= i < |t| :: t[i] != ' '
  {
    var d := DigitPrefix(t);
    forall i | 0 <= i < |t|
      ensures t[i] != ' '
    {
      if i < d {
        assert t[..d][i] == t[i];
      } else if i > d {
        assert t[d + 1..][i - d - 1] == t[i];
      }
    }
  }

  /** Scanning matcher for the header pattern. Since a group tail never holds a
      space, the first group ends at the first space after its leading
      character, and likewise the second: the match, if any, is unique. */
  function ParseHeader(line: string): (r: Option<(string, string)>)
    ensures r.Some? ==> IsGroup(r.value.0) && IsGroup(r.value.1)
  {
    if |line| < 4 || line[..3] != "@@ " || line[3] == '\n' then None
    else
      var k1 := 4 + NonSpacePrefix(line[4..]);
      if k1 + 1 >= |line| || line[k1 + 1] == '\n' then None
      else
        var k2 := k1 + 2 + NonSpacePrefix(line[k1 + 2..]);
        if StartsWith(line[k2..], " @@") && IsGroupTail(line[4..k1]) && IsGroupTail(line[k1 + 2..k2])
        then
          assert line[3..k1][1..] == line[4..k1];
          assert line[k1 + 1..k2][1..] == line[k1 + 2..k2];
          Some((line[3..k1], line[k1 + 1..k2]))
        else None
  }

  /** Every match the scanner reports is a match of the pattern. */
  lemma ParseHeaderSound(line: string)
    requires ParseHeader(line).Some?
    ensures HeaderMatches(line, ParseHeader(line).value.0, ParseHeader(line).value.1)
  {
    var k1 := 4 + NonSpacePrefix(line[4..]);
    var k2 := k1 + 2 + NonSpacePrefix(line[k1 + 2..]);
    assert ParseHeader(line) == Some((line[3..k1], line[k1 + 1..k2]));
    assert line[k1] == line[4..][k1 - 4];
    ScannedHeader(line, k1, k2);
  }

  /** The text a successful scan has checked is a match of the pattern. */
  lemma ScannedHeader(line: string, k1: nat, k2: nat)
    requires 4 <= k1 && k1 + 2 <= k2 <= |line|
    requires line[..3] == "@@ " && line[3] != '\n' && line[k1] == ' ' && line[k1 + 1] != '\n'
    requires StartsWith(line[k2..], " @@")
    requires IsGroupTail(line[4..k1]) && IsGroupTail(line[k1 + 2..k2])
    ensures HeaderMatches(line, line[3..k1], line[k1 + 1..k2])
  {
    var g1, g2 := line[3..k1], line[k1 + 1..k2];
    assert g1[1..] == line[4..k1];
    assert g2[1..] == line[k1 + 2..k2];
    assert line[k2..k2 + 3] == " @@" by {
      assert line[k2..][..3] == line[k2..k2 + 3];
    }
    HeaderPrefix(line, k1, k2);
  }

  /** The prefix of a line cut at the two group ends, reassembled. */
  lemma HeaderPrefix(line: string, k1: nat, k2: nat)
    requires 3 <= k1 < k2 && k2 + 3 <= |line|
    requires line[..3] == "@@ " && line[k1] == ' ' && line[k2..k2 + 3] == " @@"
    ensures "@@ " + line[3..k1] + " " + line[k1 + 1..k2] + " @@" == line[..k2 + 3]
  {
    assert line[..k1] == line[..3] + line[3..k1];
    assert line[..k1 + 1] == line[..k1] + " ";
    assert line[..k2] == line[..k1 + 1] + line[k1 + 1..k2];
    assert line[..k2 + 3] == line[..k2] + line[k2..k2 + 3];
  }

  /** A piece of a prefix of `line` is found in `line` at the same place. */
  lemma PrefixPiece(a: string, b: string, line: string)
    requires a + b <= line
    ensures a <= line
    ensures line[|a|..|a| + |b|] == b
  {
    assert (a + b)[..|a|] == a;
    assert (a + b)[|a|..] == b;
  }

  /** A header the scanner accepts has a digit right after `@@ ` and the
      sign character. */
  lemma ParseHeaderDigit(line: string)
    requires ParseHeader(line).Some?
    ensures |line| > 4 && IsDigit(line[4])
  {
    var k1 := 4 + NonSpacePrefix(line[4..]);
    var t := line[4..k1];
    assert IsGroupTail(t);
    var d := DigitPrefix(t);
    assert IsDigit(t[..d][0]);
  }

  /** The space-free prefix ends at the first space. */
  lemma NonSpacePrefixAt(s: string, n: nat)
    requires n < |s| && s[n] == ' '
    requires forall i | 0 <= i < n :: s[i] != ' '
    ensures NonSpacePrefix(s) == n
  {
  }

  /** Every match of the pattern is found by the scanner, so the scanner
      rejects exactly the lines the pattern does not match. */
  lemma ParseHeaderComplete(line: string, g1: string, g2: string)
    requires HeaderMatches(line, g1, g2)
    ensures ParseHeader(line) == Some((g1, g2))
  {
    var k1 := 3 + |g1|;
    var k2 := k1 + 1 + |g2|;
    HeaderSlices(line, g1, g2, k1, k2);
    GroupEndsAtSpace(line, 3, 4, g1);
    GroupEndsAtSpace(line, k1 + 1, k1 + 2, g2);
    ParseHeaderAt(line, k1, k2);
  }

  /** Where the pieces of a matched header sit in the line; `k1` and `k2`
      are the ends of the two groups. */
  lemma HeaderSlices(line: string, g1: string, g2: string, k1: nat, k2: nat)
    requires "@@ " + g1 + " " + g2 + " @@" <= line
    requires k1 == 3 + |g1| && k2 == k1 + 1 + |g2|
    ensures line[..3] == "@@ "
    ensures line[3..k1] == g1
    ensures line[k1] == ' '
    ensures line[k1 + 1..k2] == g2
    ensures line[k2..k2 + 3] == " @@"
  {
    PrefixPiece("@@ " + g1 + " " + g2, " @@", line);
    PrefixPiece("@@ " + g1 + " ", g2, line);
    PrefixPiece("@@ " + g1, " ", line);
    PrefixPiece("@@ ", g1, line);
    assert line[k1] == line[k1..k1 + 1][0];
  }

  /** A group found in a line and followed there by a space ends at that
      space: the scan from its second character stops exactly there. */
  lemma GroupEndsAtSpace(line: string, start: nat, next: nat, g: string)
    requires next == start + 1
    requires IsGroup(g)
    requires start + |g| < |line|
    requires line[start..start + |g|] == g
    requires line[start + |g|] == ' '
    ensures line[start] != '\n'
    ensures IsGroupTail(line[next..start + |g|])
    ensures NonSpacePrefix(line[next..]) == |g| - 1
  {
    assert line[start] == g[0];
    assert line[next..start + |g|] == g[1..];
    GroupTailHasNoSpace(g[1..]);
    var rest := line[next..];
    assert forall i | 0 <= i < |g| - 1 :: rest[i] == g[1..][i];
    assert rest[|g| - 1] == line[start + |g|];
    NonSpacePrefixAt(rest, |g| - 1);
  }

  /** `ParseHeader` once the two group ends are known. */
  lemma ParseHeaderAt(line: string, k1: nat, k2: nat)
    requires 4 <= k1 && k1 + 2 <= k2 && k2 + 3 <= |line|
    requires line[..3] == "@@ " && line[3] != '\n' && line[k1 + 1] != '\n'
    requires NonSpacePrefix(line[4..]) == k1 - 4
    requires NonSpacePrefix(line[k1 + 2..]) == k2 - k1 - 2
    requires line[k2..k2 + 3] == " @@"
    requires IsGroupTail(line[4..k1]) && IsGroupTail(line[k1 + 2..k2])
    ensures ParseHeader(line) == Some((line[3..k1], line[k1 + 1..k2]))
  {
    assert !(|line| < 4 || line[..3] != "@@ " || line[3] == '\n');
    assert 4 + NonSpacePrefix(line[4..]) == k1;
    assert !(k1 + 1 >= |line| || line[k1 + 1] == '\n');
    assert k1 + 2 + NonSpacePrefix(line[k1 + 2..]) == k2;
    assert StartsWith(line[k2..], " @@") by {
      assert line[k2..][..3] == line[k2..k2 + 3];
    }
  }

  /** The start line number of a group: `int(group.split(',')[0][1:])`, that
      is, the digits after the leading character up to any comma. `None` is
      the `ValueError` raised when nothing is left, which happens exactly
      when the leading character is itself a comma. */
  function StartNumber(g: string): (r: Option<nat>)
    requires IsGroup(g)
    ensures r.None? <==> g[0] == ','
    ensures r.Some? ==> r == ParseInt(g[1..1 + DigitPrefix(g[1..])])
  {
    var head := Split(g, ',')[0];
    var digits := if |head| >= 1 then head[1..] else "";
    StartDigits(g);
    ParseInt(digits)
  }

  /** The characters `int` receives: nothing after a leading comma, and
      otherwise the digit run after the leading character. */
  lemma StartDigits(g: string)
    requires IsGroup(g)
    ensures var head := Split(g, ',')[0];
            var digits := if |head| >= 1 then head[1..] else "";
            && (g[0] == ',' ==> digits == "")
            && (g[0] != ',' ==> digits == g[1..1 + DigitPrefix(g[1..])] && |digits| >= 1 && AllDigits(digits))
  {
    GroupHead(g);
    var d := DigitPrefix(g[1..]);
    if g[0] != ',' {
      assert g[..1 + d][1..] == g[1..1 + d] == g[1..][..d];
    }
  }

  /** What `group.split(',')[0]` is for a matched group. */
  lemma GroupHead(g: string)
    requires IsGroup(g)
    ensures g[0] == ',' ==> Split(g, ',')[0] == ""
    ensures g[0] != ',' ==> Split(g, ',')[0] == g[..1 + DigitPrefix(g[1..])]
  {
    if g[0] == ',' {
      SplitCons("", ',', g[1..]);
      assert [] + [','] + g[1..] == g;
    } else {
      GroupHeadLead(g);
    }
  }

  lemma GroupHeadLead(g: string)
    requires IsGroup(g) && g[0] != ','
    ensures Split(g, ',')[0] == g[..1 + DigitPrefix(g[1..])]
  {
    var t := g[1..];
    var d := DigitPrefix(t);
    var p := g[..1 + d];
    LeadHasNoComma(g);
    if d == |t| {
      assert p == g;
      SplitSingle(g, ',');
    } else {
      assert g[1 + d] == t[d] == ',';
      assert g == p + [','] + g[2 + d..];
      SplitCons(p, ',', g[2 + d..]);
    }
  }

  /** The lead character and the digit run of a group hold no comma. */
  lemma LeadHasNoComma(g: string)
    requires IsGroup(g) && g[0] != ','
    ensures ',' !in g[..1 + DigitPrefix(g[1..])]
  {
    var t := g[1..];
    var d := DigitPrefix(t);
    var p := g[..1 + d];
    assert AllDigits(t[..d]);
    forall i | 0 <= i < |p|
      ensures p[i] != ','
    {
      if i > 0 {
        assert p[i] == t[..d][i - 1];
        assert IsDigit(t[..d][i - 1]);
      }
    }
  }

  /** The start number of a group built from a leading character other than a
      comma, a digit string and an optional `,count` suffix is the value of
      those digits. */
  lemma StartNumberOf(lead: char, digits: string, count: string)
    requires lead != ',' && lead != '\n'
    requires |digits| >= 1 && AllDigits(digits)
    requires count == [] || (count[0] == ',' && AllDigits(count[1..]))
    ensures IsGroup([lead] + digits + count)
    ensures StartNumber([lead] + digits + count) == Some(DigitsValue(digits))
  {
    var g := [lead] + digits + count;
    GroupOf(lead, digits, count);
    var r := StartNumber(g);
    assert r.Some?;
    assert g[1..1 + DigitPrefix(g[1..])] == digits;
  }

  lemma GroupOf(lead: char, digits: string, count: string)
    requires lead != ',' && lead != '\n'
    requires |digits| >= 1 && AllDigits(digits)
    requires count == [] || (count[0] == ',' && AllDigits(count[1..]))
    ensures IsGroup([lead] + digits + count)
    ensures DigitPrefix(([lead] + digits + count)[1..]) == |digits|
  {
    var g := [lead] + digits + count;
    var t := g[1..];
    assert t == digits + count;
    DigitPrefixOf(digits, count);
    assert t[..|digits|] == digits;
    if count != [] {
      assert t[|digits|] == count[0];
      assert t[|digits| + 1..] == count[1..];
    }
  }

  /** A digit run followed by something that does not start with a digit. */
  lemma {:induction false} DigitPrefixOf(digits: string, rest: string)
    requires AllDigits(digits)
    requires rest == [] || !IsDigit(rest[0])
    ensures DigitPrefix(digits + rest) == |digits|
    decreases |digits|
  {
    var s := digits + rest;
    if |digits| == 0 {
      assert s == rest;
    } else {
      assert IsDigit(digits[0]);
      assert s[0] == digits[0];
      assert s[1..] == digits[1..] + rest;
      assert AllDigits(digits[1..]) by {
        forall i | 0 <= i < |digits| - 1
          ensures IsDigit(digits[1..][i])
        {
          assert digits[1..][i] == digits[i + 1];
        }
      }
      DigitPrefixOf(digits[1..], rest);
    }
  }
}

=== FILE: strings.dfy ===
/** The handful of Python `str` operations the modelled code relies on:
    `startswith`, `endswith`, `split` with a one-character separator, and
    `int` applied to a string of ASCII digits. */
module Strings {

  import opened Wrappers

  /** `s.startswith(p)` */
  predicate StartsWith(s: string, p: string) {
    p <= s
  }

  /** `s.endswith(p)` */
  predicate EndsWith(s: string, p: string) {
    |p| <= |s| && s[|s| - |p|..] == p
  }

  /** The inverse of `Split`: the pieces glued back together with the separator. */
  function Join(pieces: seq<string>, sep: char): string
    requires |pieces| >= 1
  {
    if |pieces| == 1 then pieces[0] else pieces[0] + [sep] + Join(pieces[1..], sep)
  }

  /** `s.split(sep)` for a one-character separator: always at least one piece
      (`"".split(",") == [""]`), no piece holds the separator, and gluing the
      pieces back together gives `s` again. */
  function Split(s: string, sep: char): (r: seq<string>)
    ensures |r| >= 1
    ensures forall i | 0 <= i < |r| :: sep !in r[i]
    ensures Join(r, sep) == s
    decreases |s|
  {
    if |s| == 0 then [""]
    else
      var rest := Split(s[1..], sep);
      if s[0] == sep then
        assert s == [sep] + s[1..];
        [""] + rest
      else
        var r := [[s[0]] + rest[0]] + rest[1..];
        assert r[1..] == rest[1..];
        assert s == [s[0]] + s[1..];
        r
  }

  /** A separator-free piece followed by the separator splits off as one piece. */
  lemma {:induction false} SplitCons(p: string, sep: char, t: string)
    requires sep !in p
    ensures Split(p + [sep] + t, sep) == [p] + Split(t, sep)
    decreases |p|
  {
    if |p| == 0 {
      assert p + [sep] + t == [sep] + t;
      assert ([sep] + t)[1..] == t;
    } else {
      var s := p + [sep] + t;
      assert s[0] == p[0] && s[1..] == p[1..] + [sep] + t;
      SplitCons(p[1..], sep, t);
      assert [p[0]] + p[1..] == p;
    }
  }

  /** A separator-free string is a single piece. */
  lemma {:induction false} SplitSingle(p: string, sep: char)
    requires sep !in p
    ensures Split(p, sep) == [p]
    decreases |p|
  {
    if |p| > 0 {
      SplitSingle(p[1..], sep);
      assert [p[0]] + p[1..] == p;
    }
  }

  /** Splitting undoes joining, so together with `Split`'s own contract the
      pieces of a string are exactly the separator-free sequence that joins
      back to it. */
  lemma {:induction false} SplitJoin(pieces: seq<string>, sep: char)
    requires |pieces| >= 1
    requires forall i | 0 <= i < |pieces| :: sep !in pieces[i]
    ensures Split(Join(pieces, sep), sep) == pieces
    decreases |pieces|
  {
    if |pieces| == 1 {
      SplitSingle(pieces[0], sep);
    } else {
      SplitJoin(pieces[1..], sep);
      SplitCons(pieces[0], sep, Join(pieces[1..], sep));
      assert [pieces[0]] + pieces[1..] == pieces;
    }
  }

  predicate IsDigit(c: char) {
    '0' <= c <= '9'
  }

  predicate AllDigits(s: string) {
    forall i | 0 <= i < |s| :: IsDigit(s[i])
  }

  /** Length of the longest prefix of `s` made of ASCII digits. */
  function DigitPrefix(s: string): (n: nat)
    ensures n <= |s|
    ensures AllDigits(s[..n])
    ensures n < |s| ==> !IsDigit(s[n])
  {
    if |s| == 0 || !IsDigit(s[0]) then 0 else 1 + DigitPrefix(s[1..])
  }

  /** The decimal value of a string of ASCII digits, as `int` computes it
      (leading zeros are allowed). */
  function DigitsValue(s: string): nat
    requires AllDigits(s)
  {
    if |s| == 0 then 0
    else 10 * DigitsValue(s[..|s| - 1]) + (s[|s| - 1] as int - '0' as int)
  }

  /** Decimal rendering of a natural number, without leading zeros. */
  function ShowNat(n: nat): (s: string)
    ensures |s| >= 1 && AllDigits(s)
  {
    if n < 10 then [('0' as int + n) as char]
    else ShowNat(n / 10) + [('0' as int + n % 10) as char]
  }

  /** Reading back a rendered number gives the number. */
  lemma {:induction false} DigitsValueShowNat(n: nat)
    ensures DigitsValue(ShowNat(n)) == n
  {
    var s := ShowNat(n);
    if n >= 10 {
      DigitsValueShowNat(n / 10);
      assert s[..|s| - 1] == ShowNat(n / 10);
    }
  }

  /** `int` of a string: defined here only for non-empty ASCII digit strings,
      which is all the modelled code ever hands it; anything else (in
      particular the empty string) is the `ValueError` case. */
  function ParseInt(s: string): (r: Option<nat>)
    ensures r.Some? <==> |s| >= 1 && AllDigits(s)
  {
    if |s| >= 1 && AllDigits(s) then Some(DigitsValue(s)) else None
  }

  /** `int(str(n)) == n` */
  lemma ParseIntShowNat(n: nat)
    ensures ParseInt(ShowNat(n)) == Some(n)
  {
    DigitsValueShowNat(n);
  }
}

=== FILE: unified_diff.dfy ===
/** `process_unified_diff`: one forward pass over the lines of a unified diff
    that builds, for every hunk header, a map from the anchor line number of
    each change run to the text of that run.

    The Python loop keeps five loose variables; here they are one `State`
    threaded through `Step`, and the loop is the fold `Run`. Every exception
    the loop can raise is a `Failure`. */
module UnifiedDiff {

  import opened Wrappers
  import opened Strings
  import opened HunkHeader

  /** Runs of one hunk: anchor line number to the run's text. */
  type Runs = map<int, string>

  /** The result: hunk-header line to the runs of that hunk. */
  type Report = map<string, Runs>

  /** The exceptions the loop can raise. */
  datatype DiffError =
      /** An `@@` line the header pattern does not match (`match` gives `None`). */
    | MalformedHeader(line: string)
      /** A matched header whose group starts with a comma (`int('')`). */
    | MissingStart(line: string)
      /** A `+`/`-` line while the current hunk key `''` has no entry. */
    | NoCurrentHunk(line: string)
      /** A `+=` on an anchor the current hunk has no entry for. */
    | NoCurrentRun(line: string)

  /** The loop state: the old and new line counters (`linenum`,
      `linenumnew`), the current hunk key (`hunkstart`), the anchor of the
      current run (`linenr`), whether a run is open (`isfirsthit`, which
      starts out true) and the runs built so far (`suggestedfix2`). */
  datatype State = State(
    oldLine: int,
    newLine: int,
    hunk: string,
    anchor: int,
    runOpen: bool,
    report: Report)

  const Initial := State(0, 0, "", 0, true, map[])

  /** Which branch of the loop body a line takes; the tests are made in
      this order. */
  datatype LineKind = Skipped | Header | Added | Removed | Context | NoBranch

  function Classify(line: string): (k: LineKind)
    ensures k == Added <==> |line| >= 1 && line[0] == '+' && (|line| == 1 || line[1] != '+')
    ensures k == Removed <==> |line| >= 1 && line[0] == '-' && (|line| == 1 || line[1] != '-')
    ensures k == Header <==> |line| >= 2 && line[0] == '@' && line[1] == '@'
    ensures k == Context <==> |line| >= 1 && line[0] == ' '
  {
    if StartsWith(line, "--") || StartsWith(line, "++") then Skipped
    else if StartsWith(line, "@@") then Header
    else if StartsWith(line, "+") then Added
    else if StartsWith(line, "-") then Removed
    else if StartsWith(line, " ") then Context
    else NoBranch
  }

  predicate IsChange(line: string) {
    Classify(line) == Added || Classify(line) == Removed
  }

  /** A header line the loop accepts: the pattern matches and neither group
      starts with a comma. */
  predicate ValidHeader(line: string) {
    var p := ParseHeader(line);
    p.Some? && p.value.0[0] != ',' && p.value.1[0] != ','
  }

  /** The `@@` branch: both counters restart from the header's start numbers,
      the run is closed and the header's runs start out empty. */
  function OpenHunk(st: State, line: string): (r: Result<State, DiffError>)
    ensures r.Success? <==> ValidHeader(line)
    ensures r.Success? ==>
              && r.value.hunk == line && !r.value.runOpen
              && line in r.value.report && r.value.report[line] == map[]
  {
    match ParseHeader(line)
    case None => Failure(MalformedHeader(line))
    case Some((left, right)) =>
      var lstart := StartNumber(left);
      var rstart := StartNumber(right);
      if lstart.None? || rstart.None? then Failure(MissingStart(line))
      else Success(State(lstart.value, rstart.value, line, st.anchor, false,
                         st.report[line := map[]]))
  }

  /** The shared part of the `+` and `-` branches: open a run at `counter` if
      none is open (resetting that anchor's text to empty), then append the
      line and a newline to the current run. */
  function AppendToRun(st: State, line: string, counter: int): (r: Result<State, DiffError>)
    ensures r.Success? ==>
              && r.value.runOpen && r.value.hunk == st.hunk
              && r.value.oldLine == st.oldLine && r.value.newLine == st.newLine
    ensures st.hunk !in st.report ==> r == Failure(NoCurrentHunk(line))
  {
    if st.hunk !in st.report then Failure(NoCurrentHunk(line))
    else
      var anchor := if st.runOpen then st.anchor else counter;
      var runs := if st.runOpen then st.report[st.hunk] else st.report[st.hunk][anchor := ""];
      if anchor !in runs then Failure(NoCurrentRun(line))
      else Success(st.(anchor := anchor, runOpen := true,
                       report := st.report[st.hunk := runs[anchor := runs[anchor] + line + "\n"]]))
  }

  /** One iteration of the loop. */
  function Step(st: State, line: string): Result<State, DiffError> {
    match Classify(line)
    case Skipped => Success(st)
    case Header => OpenHunk(st, line)
    case Added =>
      var s :- AppendToRun(st, line, st.newLine);
      Success(s.(newLine := s.newLine + 1))
    case Removed =>
      var s :- AppendToRun(st, line, st.oldLine);
      Success(s.(oldLine := s.oldLine + 1))
    case Context =>
      Success(st.(oldLine := st.oldLine + 1, newLine := st.newLine + 1, runOpen := false))
    case NoBranch => Success(st)
  }

  /** The loop: a left fold of `Step`, stopping at the first exception. */
  function Run(st: State, lines: seq<string>): Result<State, DiffError>
    decreases |lines|
  {
    if |lines| == 0 then Success(st)
    else
      match Step(st, lines[0])
      case Failure(e) => Failure(e)
      case Success(next) => Run(next, lines[1..])
  }

  /** The `stream` dictionary: the diff text captured from the rewriting
      engine, the `result` entry, and every other entry, which the function
      never touches. */
  datatype Stream<X> = Stream(originalDiff: string, result: Report, others: X)

  /** The set of header lines among `lines`. */
  function HeaderLines(lines: seq<string>): set<string> {
    set i | 0 <= i < |lines| && Classify(lines[i]) == Header :: lines[i]
  }

  /** `process_unified_diff`: an empty diff leaves the stream as it is;
      otherwise the diff is split into lines, folded, and only `result` is
      replaced, by a report with one entry per header line of the diff. */
  function ProcessUnifiedDiff<X>(s: Stream<X>): (r: Result<Stream<X>, DiffError>)
    ensures s.originalDiff == "" ==> r == Success(s)
    ensures r.Success? ==> r.value.originalDiff == s.originalDiff && r.value.others == s.others
    ensures r.Success? && s.originalDiff != "" ==>
      r.value.result.Keys == HeaderLines(Split(s.originalDiff, '\n'))
  {
    if s.originalDiff == "" then Success(s)
    else
      var lines := Split(s.originalDiff, '\n');
      var st :- Run(Initial, lines);
      RunKeys(Initial, lines);
      Success(s.(result := st.report))
  }

  /** A successful fold adds exactly the header lines it meets as keys. */
  lemma {:induction false} RunKeys(st: State, lines: seq<string>)
    requires Run(st, lines).Success?
    ensures Run(st, lines).value.report.Keys == st.report.Keys + HeaderLines(lines)
    decreases |lines|
  {
    if |lines| > 0 {
      var next := Step(st, lines[0]).value;
      RunKeys(next, lines[1..]);
      StepKeys(st, lines[0]);
      HeaderLinesCons(lines);
    }
  }

  /** One step adds the line as a key if it is a header, and nothing else. */
  lemma StepKeys(st: State, line: string)
    requires Step(st, line).Success?
    ensures Step(st, line).value.report.Keys
            == st.report.Keys + (if Classify(line) == Header then {line} else {})
  {
  }

  lemma HeaderLinesCons(lines: seq<string>)
    requires |lines| > 0
    ensures HeaderLines(lines)
            == HeaderLines(lines[1..]) + (if Classify(lines[0]) == Header then {lines[0]} else {})
  {
    forall x | x in HeaderLines(lines)
      ensures x in HeaderLines(lines[1..]) + (if Classify(lines[0]) == Header then {lines[0]} else {})
    {
      var i :| 0 <= i < |lines| && Classify(lines[i]) == Header && lines[i] == x;
      if i > 0 {
        assert lines[1..][i - 1] == x;
      }
    }
    forall x | x in HeaderLines(lines[1..])
      ensures x in HeaderLines(lines)
    {
      var i :| 0 <= i < |lines[1..]| && Classify(lines[1..][i]) == Header && lines[1..][i] == x;
      assert lines[i + 1] == x;
    }
  }
}

=== FILE: wrappers.dfy ===
/** Failure-compatible wrappers used throughout the model: `Option` for a
    lookup or parse that may find nothing, `Result` for an operation that the
    Python code would abort by raising an exception. */
module Wrappers {

  datatype Option<+T> = None | Some(value: T)

  datatype Result<+R, +E> = Success(value: R) | Failure(error: E) {

    predicate IsFailure() {
      Failure?
    }

    function PropagateFailure<U>(): Result<U, E>
      requires Failure?
    {
      Failure(error)
    }

    function Extract(): R
      requires Success?
    {
      value
    }
  }
}
